=== FILE: README.md ===
# AeroMail data layer in Dafny

A model of the mail data layer of AeroMail, a Cloudflare-Worker mail client.
That layer has four parts:

- **Entity stores.** There are three of them, for users, messages and thread
  aggregates. Each one is a keyed record map together with an ordered index of
  ids.
- **Folder views.** These are composite indexes, one per folder. Each holds
  the message sort keys `<timestamp zero-padded to 15>:<message id>` for the
  messages in that view. The starred view also holds every starred message
  that is not in the trash.
- **`MailboxEntity`.** It ingests a message (`processNewEmail`): it stores the
  message, files it under its views, and upserts the thread aggregate. It also
  lists a folder (`listThreadsByFolder`): it scans up to 200 keys of the view,
  resolves them to distinct threads, re-checks each thread's folder and star
  flag, sorts by recency and cuts at the limit.
- **The request handlers.** These are init, reset, list, get, patch,
  mark-thread-read, send, simulate-inbound and me. Each one is a function from
  the stored state to its answer and the state it leaves.

Files, in dependency order:

| file | what it holds |
|---|---|
| `wrappers.dfy` | `Option` and the handlers' `Response` (ok, not found, failed) |
| `strings.dfy` | JavaScript string order (`<`, lexicographic on characters), decimal rendering, `padStart`, `split` fields |
| `sorting.dfy` | stable sort by a key (the semantics of `Array.prototype.sort` with a comparator), filter, `slice(0, n)`, `Set` de-duplication |
| `ordered_index.dfy` | an ordered index of strings: add, remove, page |
| `entity_store.dfy` | a keyed entity store with its id index: get, create, put, mutate, list, delete many, ensure seed |
| `mail_types.dfy` | users, messages, thread aggregates, the shallow JSON merge of a PATCH body |
| `threads.dfy` | the thread aggregate: metadata refresh, ingesting a message, marking read, swapping a patched member |
| `composite_index.dfy` | the folder views and their sort keys |
| `mailbox.dfy` | `processNewEmail`, `listThreadsByFolder`, `simulateInbound` |
| `routes.dfy` | the request handlers except init and reset |
| `bootstrap.dfy` | `/api/init` and `/api/init/reset` |

Some things that come from outside the layer are passed in as parameters:
the values of `crypto.randomUUID()` and `Date.now()`, the route parameters and
the JSON bodies. A timestamp is a natural number of milliseconds.

A stored thread is *sound* when three things hold:
- its unread count, star flag, last time and snippet match its members;
- its participants are distinct;
- a thread without an id has no members.

It is *consistent* when it is sound and its members are also in ascending time
order.

## Model

| member | source | states |
|---|---|---|
| `Strings.PaddedDecimalIsFixed` | worker/entities.ts:72 | Below 10^15, `String(ts).padStart(15,'0')` is exactly 15 decimal digits. |
| `Strings.FixedMonotone` | worker/entities.ts:72 | Fixed-width renderings order like the numbers they render, so string order on keys is time order. |
| `Strings.After` | worker/entities.ts:86 | The text after the first colon exists iff the key has a colon. When it does, the key splits back into the part before, the colon and the part after. |
| `Sorting.SortBy` | worker/entities.ts:114 | Sorting by a key returns a sorted permutation of its input. |
| `Sorting.SortByStable` | worker/entities.ts:94 | The sort is stable: the elements sharing any one key keep their input order. |
| `Sorting.SortBySorted` | worker/entities.ts:114 | Sorting an already sorted sequence returns it unchanged. |
| `Sorting.FilterDistinct` | worker/entities.ts:93 | Filtering keeps elements distinct by a key when the kept ones were distinct by it to begin with. |
| `Sorting.SliceTo` | worker/entities.ts:95 | `slice(0, n)` is a prefix of its input. It has `n` elements when `n >= 0`. A negative `n` drops `-n` elements from the end. |
| `Sorting.Dedup` | worker/entities.ts:89 | `Array.from(new Set(xs))` has no duplicates, the same members as `xs`, and is no longer than `xs`. |
| `Sorting.DedupFirstOrder` | worker/entities.ts:89 | The distinct elements come out in the order of their first occurrence in `xs`, the insertion order a `Set` iterates in. |
| `Sorting.DedupNoDup` | worker/entities.ts:89 | De-duplicating a duplicate-free sequence returns it unchanged, first-seen order included. |
| `OrderedIndex.Page` | worker/entities.ts:85 | A page of `n` holds the least `min(n, size)` keys of the index, in ascending order. |
| `OrderedIndex.Add` | worker/entities.ts:76 | `idx.add(k)` adds exactly `k` to the keys and keeps the index ordered. |
| `OrderedIndex.Remove` | worker/entities.ts:74 | `idx.remove(k)` takes exactly `k` from the keys, is a no-op when `k` is absent, and keeps the index ordered. |
| `OrderedIndex.AddThenRemove` | worker/entities.ts:73-77 | Removing a key just added to an index that lacked it restores the index. |
| `OrderedIndex.AddIdempotent` | worker/entities.ts:76 | Adding a key twice is adding it once. |
| `OrderedIndex.KeysCount` | worker/entities.ts:85 | An ordered index holds each key once, so its length is the number of its keys. |
| `EntityStore.Get` | worker/entities.ts:7 | A stored id answers its record. An id never written answers the entity's initial state. |
| `EntityStore.Create` | worker/entities.ts:99 | Creating writes the record and adds its id to the index, and keeps the index ordered. |
| `EntityStore.Put` | worker/user-routes.ts:69 | Writing through the record leaves the id index alone. It replaces only that record. |
| `EntityStore.Mutate` | worker/user-routes.ts:69 | Mutating writes the function's image of the stored record, or of the initial state for an absent id, and leaves the id index alone. |
| `EntityStore.MutateFixed` | worker/user-routes.ts:72-75 | Mutating a stored record by a function that leaves it as it is changes nothing. |
| `EntityStore.List` | worker/user-routes.ts:11 | A listing holds exactly `min(n, size)` records: those of the first ids of the index, in index order. |
| `EntityStore.DeleteMany` | worker/user-routes.ts:25-27 | Deleting removes exactly the named ids from both the records and the index. Every other record is untouched. |
| `EntityStore.DeleteIdsOf` | worker/user-routes.ts:25-27 | Deleting by `items.map(x => x.id)` drops exactly the records and index entries of the ids those items carry; every other record survives unchanged. |
| `EntityStore.EnsureSeed` | worker/user-routes.ts:9-10 | The seed is written only when the id index is empty. Then the index lists exactly the seed ids, each seed id holds the last seed record carrying it, and every other record is kept. Otherwise the store is returned as it was. |
| `EntityStore.EnsureSeedIdempotent` | worker/entities.ts:8 | Seeding twice is seeding once. |
| `EntityStore.ListThenDeleteEmpties` | worker/user-routes.ts:22-27 | Listing a coherent store that holds at most `n` ids, then deleting the listed ids, empties the store. |
| `EntityStore.CreateAllKeeps` | worker/user-routes.ts:10 | Seeding records that all satisfy a property keeps every stored record satisfying it. |
| `MailTypes.Merge` | worker/user-routes.ts:95 | Patching with `{ isRead: true }` sets the read flag and changes no other field. |
| `MailTypes.MergeFields` | worker/user-routes.ts:69 | Each of the eleven fields takes the update's value when the update names it and keeps the stored value when it does not. |
| `MailTypes.MergeIdempotent` | worker/user-routes.ts:69 | Merging the same update twice is merging it once. |
| `MailTypes.MergeNoChange` | worker/user-routes.ts:69 | An empty update leaves the message as it is. |
| `Threads.CountUnread` | worker/entities.ts:32 | The unread count is at most the number of members. It is zero iff every member is read. |
| `Threads.CountUnreadMultiset` | worker/entities.ts:116 | The unread count depends only on the multiset of members, not on their order. |
| `Threads.LatestIndex` | worker/entities.ts:34 | Picks the first member with the greatest timestamp, which is what a stable descending sort puts first. |
| `Threads.Refresh` | worker/entities.ts:28-43 | An empty thread is left as it is. Otherwise unread count, star flag, last time and snippet are recomputed from the members. The snippet is that of the first latest member, and members, subject and participants stay unchanged. |
| `Threads.RefreshIdempotent` | worker/entities.ts:28-43 | Refreshing twice is refreshing once. |
| `Threads.AddEmail` | worker/entities.ts:104-120 | The written thread is keyed and filed as the message. Its members are the old ones (none for an absent thread) plus the message, as a multiset, in ascending time order. |
| `Threads.AddEmailToNewThread` | worker/entities.ts:105-118 | A message for an absent thread starts a thread holding exactly that message, with its subject, its sender as the only participant, and its flags, time and snippet. |
| `Threads.AddEmailToExistingThread` | worker/entities.ts:105-114 | For an existing thread whose members are in time order, the new message keeps the subject and is inserted in time order after members with the same timestamp. The sender is added as a participant if new, and time and snippet follow the `Math.max` and `>=` rules. |
| `Threads.AddEmailConsistent` | worker/entities.ts:104-120 | Ingesting a message keeps the thread consistent: members sorted, derived fields matching the members, participants without duplicates. |
| `Threads.MarkAllRead` | worker/user-routes.ts:87-91 | Each member is the stored member with its read flag set, in the same order. The unread count is zero, which matches the members, and every other thread field is unchanged. |
| `Threads.MarkAllReadIdempotent` | worker/user-routes.ts:87-91 | Marking a thread read twice is marking it once. |
| `Threads.MarkAllReadConsistent` | worker/user-routes.ts:87-91 | Marking read keeps a consistent thread consistent, star flag and latest member included. |
| `Threads.ReplaceMemberSorted` | worker/user-routes.ts:74 | The swap keeps members in time order when the replaced copies carry the new timestamp. |
| `Threads.ReplaceMemberIdempotent` | worker/user-routes.ts:74 | Swapping twice is swapping once. |
| `Threads.PatchedThreadDerived` | worker/user-routes.ts:72-76 | After the swap and a refresh, the derived fields match the members again. |
| `Threads.PatchedThreadConsistent` | worker/user-routes.ts:72-76 | A timestamp-preserving swap followed by a refresh keeps a consistent thread consistent. |
| `CompositeIndex.Views` | worker/entities.ts:66-69 | A message is in its own folder's view, and also in the starred view when it is starred and not in the trash. |
| `CompositeIndex.SortKeyNamesId` | worker/entities.ts:72 | The text after the first colon of a sort key is the message id. |
| `CompositeIndex.SortKeyFixed` | worker/entities.ts:72 | Below 10^15 ms a sort key is the 15-digit timestamp, a colon and the id. |
| `CompositeIndex.UpdateCompositeIndexes` | worker/entities.ts:65-79 | Adding or removing puts or takes the message's sort key in every view it belongs to. Every other view is untouched, and the views stay ordered. |
| `CompositeIndex.RemoveAbsentIsNoop` | worker/entities.ts:72-77 | Unfiling a message whose key is in none of its views leaves every view as it was. |
| `CompositeIndex.AddThenRemoveRestores` | worker/user-routes.ts:77-79 | Filing a message whose key was absent and then unfiling it restores the views. |
| `CompositeIndex.AddTwiceIsAddOnce` | worker/entities.ts:101 | Filing the same message twice leaves what filing it once does. |
| `CompositeIndex.SortKeyIdRoundTrip` | worker/entities.ts:72 | `key.split(':')[1]` gives back the message id when the id has no colon. |
| `CompositeIndex.SortKeyInjective` | worker/entities.ts:72 | Two messages with the same sort key have the same id. |
| `CompositeIndex.SortKeyChronological` | worker/entities.ts:72 | Below 10^15 ms, an earlier message has a smaller key. |
| `CompositeIndex.SortKeyTieBreak` | worker/entities.ts:72 | At equal timestamps, keys order like the message ids. |
| `Mailbox.ProcessNewEmail` | worker/entities.ts:97-124 | Ingesting stores the message under its id and indexes it. It indexes its thread id, and users are untouched. |
| `Mailbox.ProcessNewEmailFolders` | worker/entities.ts:101 | After ingesting, each view the message belongs to gains exactly its key, and no other view changes. |
| `Mailbox.ProcessNewEmailThread` | worker/entities.ts:103-120 | The thread stored afterwards is keyed and filed as the message. Its members are the prior members (none when the thread had no id) plus the message, as a multiset, in time order. It keeps a prior subject or takes the message's, adds the sender's name once, and its unread count and star flag match the members. |
| `Mailbox.ProcessNewEmailThreads` | worker/entities.ts:103-123 | Only the message's thread record changes. Its id joins the thread index. |
| `Mailbox.ProcessNewEmailFiles` | worker/entities.ts:97-124 | A message that names a thread is filed once ingested: it is a member of its stored thread, which has an id, and its key is in every view it belongs to. |
| `Mailbox.ProcessNewEmailKeepsFiled` | worker/entities.ts:97-124 | Ingesting a message leaves every message filed before still filed: it stays a member of its thread, and its key stays in each of its views. |
| `Mailbox.ProcessNewEmailSound` | worker/entities.ts:97-124 | If every stored thread is sound before ingesting a message that names a thread, every stored thread is sound after it. |
| `Mailbox.ProcessNewEmailCoherent` | worker/entities.ts:99-123 | The message and thread stores stay coherent: the index is ordered, indexed ids are exactly the stored keys, and each record is stored under its own id. |
| `Mailbox.ProcessNewEmailKeyResolves` | worker/entities.ts:72-89 | When the message id has no colon, the key filed for it resolves through `split(':')[1]` and the stored message back to its thread id. |
| `Mailbox.ThreadOfKeyResolves` | worker/entities.ts:86-89 | A key without a colon names no thread. The key of a stored message whose id has no colon names that message's thread. |
| `Mailbox.ShownWhere` | worker/entities.ts:93 | A thread with an id shows in its own folder. A starred thread shows in the starred view, whatever its folder, the trash included. It shows nowhere else, and a thread without an id shows only in the starred view when starred. |
| `Mailbox.ScannedThreadIds` | worker/entities.ts:85-89 | At most 200 distinct non-empty thread ids. They are exactly the threads of messages named by the first 200 keys of the view. |
| `Mailbox.RankedThreads` | worker/entities.ts:91-94 | The scanned threads that pass the folder or star filter, none lost and none added, ordered by descending last-message time. |
| `Mailbox.ListThreadsByFolder` | worker/entities.ts:82-96 | The listing is the prefix of the ranked threads that `slice(0, limit)` keeps, a negative limit dropping from the end. It is no longer than 200, descends by recency, and holds only threads the filter admits. |
| `Mailbox.ListingDistinct` | worker/entities.ts:89-95 | When every thread record the folder's filter accepts is stored under its own id, no thread is listed twice. Id-less, unstarred records, such as the one a patch stores for an absent thread, may sit under any key. |
| `Mailbox.ListingComplete` | worker/entities.ts:85-95 | With a limit of at least 200, every thread of a scanned key that passes the filter is listed. |
| `Mailbox.SimulateInbound` | worker/entities.ts:125-141 | The simulated message is an unread, unstarred inbox message from the simulator with the given subject, ids and time. It has the fixed recipient, body and snippet, and it is ingested like any other. |
| `Mailbox.SimulateInboundNewThread` | worker/entities.ts:125-141 | Under a fresh thread id it opens a new unread inbox thread holding only itself, filed in the inbox view and not the starred one. |
| `Routes.EffectiveLimit` | worker/user-routes.ts:46 | A missing or zero limit becomes 20, and a limit above 100 becomes 100. Any other value passes, so the result is never zero and never above 100. |
| `Routes.ListEmails` | worker/user-routes.ts:44-53 | The listing is the prefix of the ranked threads of the folder (inbox by default) that `slice(0, limit)` keeps: `min(limit, n)` of them for a non-negative clamped limit, `n + limit` (at least 0) for a negative one. It descends by recency and shows only threads the filter admits; at most 20 without a limit, at most 100 for a non-negative one. |
| `Routes.GetEmailRoute` | worker/user-routes.ts:54-62 | An unknown id answers not-found. A known one answers the stored message with its thread, or the initial thread when none is stored. |
| `Routes.PatchEmail` | worker/user-routes.ts:63-82 | An unknown id answers not-found and changes nothing. Otherwise it answers the merged message and stores it without touching the id index; only its thread record changes, with the patched member swapped; the patched thread keeps its id, subject, participants and folder. The views change only when the folder or star flag did. Then each view loses the old key if the message was in it and gains the new key if the message now is, and keeps all its other keys. |
| `Routes.PatchMovesKeys` | worker/user-routes.ts:77-80 | When a patch moves a message, each view's keys are its old keys, minus the old key if the message was in it, plus the new key if it is now. So the new key is in each view it belongs to, the old key is gone from each view it left, other keys stay, and views it was never in are untouched. |
| `Routes.PatchIdempotent` | worker/user-routes.ts:63-82 | Sending the same patch twice answers and leaves what sending it once does. |
| `Routes.PatchKeepsShownKeyed` | worker/user-routes.ts:71-76 | From a store whose threads are all keyed, a patch keeps every shown thread keyed. When the patch names an absent thread, the initial id-less record is stored under that id, so the threads are no longer all keyed. |
| `Routes.PatchEmailSound` | worker/user-routes.ts:71-76 | Every stored thread stays sound across a patch, because the refresh restores the derived fields. |
| `Routes.PatchEmailKeepsOrder` | worker/user-routes.ts:69-76 | A patch that leaves the timestamp alone keeps the patched thread consistent, member order included. |
| `Routes.MarkOneRead` | worker/user-routes.ts:94-95 | `patch({ isRead: true })` marks that message read. An absent id gains a read initial record. |
| `Routes.MarkEmailsRead` | worker/user-routes.ts:93-96 | After the cascade, every member's message is read, every other message is unchanged, and the id index is unchanged. |
| `Routes.MarkEmailsReadIdempotent` | worker/user-routes.ts:93-96 | Running the cascade twice is running it once. |
| `Routes.MarkThreadRead` | worker/user-routes.ts:83-98 | An unknown thread answers not-found and changes nothing. Otherwise it answers and stores the thread with every member marked read, in order, and no unread count, other fields unchanged. Each member's message is marked read (an absent one gains a read initial record), every other message and the id index are unchanged. |
| `Routes.MarkThreadReadIdempotent` | worker/user-routes.ts:83-98 | A re-run answers the same thread and leaves the same state, so an interrupted cascade converges. |
| `Routes.MarkThreadReadSound` | worker/user-routes.ts:83-98 | Every stored thread stays sound when one is marked read. |
| `Routes.ComposeSent` | worker/user-routes.ts:100-113 | The sent message is read, unstarred and filed under sent. Its snippet is the first 100 characters of the body, or the whole body when it is shorter, and the recipient's name is the text before the first `@`. A missing or empty thread id is replaced by the fresh one. |
| `Routes.Send` | worker/user-routes.ts:99-116 | Answers the composed message, stores it under the fresh id and leaves users alone. When it names a thread it is filed: a member of that thread and keyed in the sent view. |
| `Routes.SendFilesUnderSent` | worker/user-routes.ts:99-116 | The sent view gains exactly the sent message's key, and no other view changes. |
| `Routes.SendKeyResolves` | worker/user-routes.ts:99-116 | The key of a sent message resolves back to its thread, which now holds it. |
| `Routes.SendReplyKeepsUnread` | worker/user-routes.ts:99-116 | A reply on an existing sound thread adds one member and leaves the unread count alone. The thread stays sound. |
| `Routes.SimulateRoute` | worker/user-routes.ts:117-121 | A missing or empty subject becomes "New Message". The answer is the unread inbox message just stored, and the new state is exactly its ingestion: thread, views and indexes included. |
| `Routes.Me` | worker/user-routes.ts:122-125 | Answers the user with the least id when one is stored. Otherwise it fails: the fallback name is never imported. |
| `Routes.NegativeLimitExceedsCap` | worker/user-routes.ts:46 | `limit=-1` lists every ranked thread but the last, so a folder ranking more than 101 threads lists more than 100. |
| `Routes.BoundedLimit` | worker/user-routes.ts:46 | The intended clamp: always between 1 and 100, with the default for anything that is not a positive number. |
| `Routes.ListEmailsBounded` | worker/user-routes.ts:44-53 | Under the intended clamp the listing is the first `min(limit, n)` ranked threads, so it never exceeds 100 threads nor the requested limit. |
| `Routes.BoundedLimitAgrees` | worker/user-routes.ts:46 | Both clamps agree on every missing or non-negative limit. |
| `Routes.ListEmailsBoundedAgrees` | worker/user-routes.ts:44-53 | Both listings are equal for a missing or non-negative limit. A negative limit on a folder ranking between 1 and 20 threads tells them apart. |
| `Routes.MeWithFallback` | worker/user-routes.ts:122-125 | With the fallback in scope, the handler always answers: the first stored user, or `MOCK_USERS[0]`. |
| `Routes.MeIsLeastUser` | worker/user-routes.ts:123-124 | In a coherent user store the answered user is stored and has the least id. |
| `Routes.MeFailsWithoutUsers` | worker/user-routes.ts:124 | With nobody stored, the handler as written fails where the corrected one answers the fallback user. |
| `Bootstrap.ReplayAllSound` | worker/user-routes.ts:12-14 | Replaying messages that all name a thread keeps every stored thread sound. |
| `Bootstrap.ReplayAllCoherent` | worker/user-routes.ts:12-14 | Replaying keeps the message and thread stores coherent. |
| `Bootstrap.ReplayAllFiles` | worker/user-routes.ts:12-14 | Replaying files every replayed message that names a thread and keeps filed every message filed before. |
| `Bootstrap.Seeded` | worker/user-routes.ts:9-10 | Seeding changes only the stores that were empty. An empty user or message store then lists exactly the seed ids, each holding the last seed record with that id, other records kept. |
| `Bootstrap.Replayed` | worker/user-routes.ts:11 | Replay covers exactly the first `min(100, size)` indexed messages, in index order. |
| `Bootstrap.Init` | worker/user-routes.ts:7-19 | Init leaves users as seeding left them and keeps every seeded message indexed. Every replayed message that names a thread is then a member of that stored thread and keyed in each of its views. |
| `Bootstrap.InitFiles` | worker/user-routes.ts:11-14 | After init every replayed message that names a thread is a member of that thread and keyed in each of its views, and every message filed before still is. |
| `Bootstrap.InitIndexesThreads` | worker/user-routes.ts:11-14 | After init, the thread index is the one before plus exactly the threads the replayed messages name, so it holds the thread of every replayed message. |
| `Bootstrap.InitTwiceDuplicates` | worker/user-routes.ts:7-19 | A second init of one stored message lists that message twice in its thread. |
| `Bootstrap.InitOnce` | worker/user-routes.ts:7-19 | The corrected init replays only when there were no messages before seeding. Otherwise messages, threads and views are left as they were, and only the user seed may be written. |
| `Bootstrap.InitOnceIdempotent` | worker/user-routes.ts:7-19 | Running the corrected init twice is running it once. |
| `Bootstrap.InitOnceTwiceKeepsOne` | worker/user-routes.ts:7-19 | With the corrected init, the same single message stays listed once in its thread. |
| `Bootstrap.InitOnceSound` | worker/user-routes.ts:7-19 | The corrected init keeps every stored thread sound, given stored and seed messages that all name a thread. |
| `Bootstrap.Clear` | worker/user-routes.ts:22-32 | Reset's clearing phase empties the five folder views. Each store loses exactly the records and index entries of the ids its listing returned; records the listings miss survive unchanged. |
| `Bootstrap.Reset` | worker/user-routes.ts:20-43 | After reset, users are as seeding the cleared store leaves them and the seeded messages stay indexed. Every replayed message that names a thread is a member of that thread and keyed in each of its views. On a coherent store within the listing caps, reset is init from the empty state. |
| `Bootstrap.ResetFiles` | worker/user-routes.ts:33-38 | After reset, the thread index is the cleared one plus exactly the threads the replayed messages name. Every replayed message that names a thread is a member of that thread and keyed in each of its views. |
| `Bootstrap.ClearEmpties` | worker/user-routes.ts:22-32 | Clearing a coherent state within the listing caps leaves the empty state. |
| `Bootstrap.ResetCanonical` | worker/user-routes.ts:20-43 | On such a state, reset is init from the empty state. It is also the corrected init from the empty state. |
| `Bootstrap.InitFromEmptyResettable` | worker/user-routes.ts:33-38 | Init from empty with a seed within the caps leaves a state that reset can clear completely. |
| `Bootstrap.ResetIdempotent` | worker/user-routes.ts:20-43 | On a coherent store within the listing caps (1000 messages, 1000 threads, 100 users) and with a seed within the caps, resetting twice is resetting once. |
| `Bootstrap.ResetSound` | worker/user-routes.ts:20-43 | After reset of a coherent state within the listing caps, with every seed message naming a thread, every stored thread is sound. |

## Left out

- `core-utils` is not part of this model. That covers `IndexedEntity`, `Index`, `ok`/`bad`/`notFound`, and the Durable Object storage beneath them. Their behaviour is taken from how the two core files use them:
  - `create` writes a record and its id.
  - `mutate` and `patch` write the record only.
  - `list` pages the id index in ascending order.
  - `ensureSeed` writes the seed when the id index is empty.
  - `getState` answers the initial state for an absent id.
- Hono routing, request parsing and the JSON response envelopes are left out. A handler is a function from its parsed parameters to a `Response`.
- The `try`/`catch` paths that answer "Failed to …" are left out. They catch failures of storage calls, which are not modelled.
- `Promise.all` and the awaited sequences are modelled as sequential. Concurrent requests and interleaved read-modify-write races are not modelled; each handler runs alone.
- `crypto.randomUUID()` and `Date.now()` are parameters. The model does not assume the ids are fresh; lemmas that need it take it as a precondition.
- A `limit` that is fractional or `NaN` is left out. The modelled limit is an optional integer, and a missing or non-numeric parameter is `None`.
- A `folder` query outside the five folder names is not modelled.
- Timestamps are non-negative integers. `String(ts)` is modelled as plain decimal digits. Exponent notation (from 10^21) is not modelled, and key order is proved only below 10^15, where the key width of 15 holds.
- Email attachments and the `indexKey` field of the shared types are not modelled. The core never reads them.
- `Routes.ListEmails`: the bound of 100 is stated only for a missing or non-negative limit. For a negative limit the source exceeds it; see Findings.
- `Routes.PatchEmailKeepsOrder`: member order is kept only for patches that leave the timestamp alone. A patch that changes `timestamp` swaps the member in place and may leave the thread unsorted, as the source does.
- `Bootstrap.ClearEmpties`: clearing everything is stated only for stores within the listing caps. Those caps are 1000 messages, 1000 threads and 100 users. Beyond them, reset leaves the unlisted records behind, as the source does.
- `Mailbox.ListingComplete`: completeness is stated for threads reached from the first 200 keys only. Messages beyond the scan bound are not listed, by design.
- `Routes.Me`: the `ReferenceError` is modelled as a failed response.
- Strings are sequences of Unicode scalar values, where JavaScript strings are UTF-16 code units. Outside the astral planes the two agree. For astral characters `slice(0, 100)` of a body and `<` between strings differ from the source: the snippet keeps 100 characters rather than 100 code units, and `<` orders by scalar value rather than by code unit.
- `Bootstrap.ResetIdempotent`: idempotence is proved only for coherent stores within the listing caps and a seed within them. A PATCH that changes `id` or names an absent `threadId` breaks coherence, and the model accepts such patches, as the source does.
- The mock seed data (`MOCK_EMAILS`) is a parameter of init and reset. The properties hold for any seed meeting the stated preconditions. Only `MOCK_USERS[0]` appears as a constant.

## Findings

| source | as written | input that shows it | evidently intended | confidence | as-written member | corrected member |
|---|---|---|---|---|---|---|
| worker/user-routes.ts:7-19 | Every call of `/api/init` replays the first 100 stored messages through `processNewEmail`, which appends each message to its thread again. | A store holding one message `e` (thread `t`). After the first init, thread `t` lists `[e]`. After the second it lists `[e, e]`. | Init is an idempotent bootstrap: replay only when the messages were just seeded. | not executed | `Bootstrap.InitTwiceDuplicates` | `Bootstrap.InitOnceIdempotent` |
| worker/user-routes.ts:124 | `/api/me` falls back to `MOCK_USERS[0]`, but the route module never imports `MOCK_USERS` (imports at lines 1-5). | An empty user store: the fallback is evaluated and throws `ReferenceError`. | Answer the first seeded mock user when no user is stored. | not executed | `Routes.MeFailsWithoutUsers` | `Routes.MeWithFallback` |
| worker/user-routes.ts:46 | `Math.min(Number(limit) \|\| 20, 100)` lets negative numbers through, and `slice(0, -1)` then keeps all but one thread. | `GET /api/emails?limit=-1` on a folder ranking 150 threads lists 149 of them. | At most 100 threads and never more than requested. | not executed | `Routes.NegativeLimitExceedsCap` | `Routes.ListEmailsBounded` |

`/api/init` replays the listed messages on every call. The intended
bootstrap, `Bootstrap.InitOnce`, replays only the messages it has just seeded
(first finding). Resetting twice in a row does give the same state once the
stores are coherent and within the listing caps (`Bootstrap.ResetIdempotent`).

=== FILE: bootstrap.dfy ===
/**
 * The two bootstrap handlers: `/api/init`, which seeds an empty store and
 * replays the listed messages into threads, and `/api/init/reset`, which
 * first deletes what it lists and clears the folder indexes.
 */
module Bootstrap {

  import opened Wrappers
  import opened OrderedIndex
  import opened EntityStore
  import opened MailTypes
  import opened Threads
  import opened CompositeIndex
  import opened Mailbox
  import opened Sorting

  /** The records `ensureSeed` writes into an empty store. */
  datatype Seed = Seed(users: seq<User>, emails: seq<Email>)

  /** Messages `/api/init` and the reset replay: `list(env, null, 100)`. */
  const ReplayCount: nat := 100
  /** Page sizes of the reset's three listings. */
  const ResetEmailCount: nat := 1000
  const ResetThreadCount: nat := 1000
  const ResetUserCount: nat := 100

  function MessageThread(e: Email): string { e.threadId }

  /** A message that names a thread. */
  predicate Threaded(e: Email) { e.threadId != "" }

  /** `processNewEmail` for each message, in order. */
  function ReplayAll(s: State, es: seq<Email>): (r: State)
    decreases |es|
    ensures r.users == s.users
  {
    if |es| == 0 then s
    else ReplayAll(ProcessNewEmail(s, es[0]), es[1..])
  }

  /** Replaying indexes every replayed message, and nothing else. */
  lemma {:induction false} ReplayAllIndexesEmails(s: State, es: seq<Email>)
    ensures ReplayAll(s, es).emails.ids.Elems() == s.emails.ids.Elems() + IdSet(es, EmailId)
    decreases |es|
  {
    if |es| == 0 {
      assert IdSet(es, EmailId) == {};
    } else {
      var next := ProcessNewEmail(s, es[0]);
      ReplayAllIndexesEmails(next, es[1..]);
      IdSetCons(es, EmailId);
      UnionStep(ReplayAll(next, es[1..]).emails.ids.Elems(), next.emails.ids.Elems(), s.emails.ids.Elems(), es[0].id, IdSet(es[1..], EmailId));
    }
  }

  /** Replaying indexes every thread the replayed messages name, and nothing else. */
  lemma {:induction false} ReplayAllIndexesThreads(s: State, es: seq<Email>)
    ensures ReplayAll(s, es).threads.ids.Elems() == s.threads.ids.Elems() + IdSet(es, MessageThread)
    decreases |es|
  {
    if |es| == 0 {
      assert IdSet(es, MessageThread) == {};
    } else {
      var next := ProcessNewEmail(s, es[0]);
      ReplayAllIndexesThreads(next, es[1..]);
      IdSetCons(es, MessageThread);
      UnionStep(ReplayAll(next, es[1..]).threads.ids.Elems(), next.threads.ids.Elems(), s.threads.ids.Elems(), es[0].threadId, IdSet(es[1..], MessageThread));
    }
  }

  /** Replaying keeps the message and thread stores coherent. */
  lemma {:induction false} ReplayAllCoherent(s: State, es: seq<Email>)
    ensures Coherent(s.emails, EmailId) ==> Coherent(ReplayAll(s, es).emails, EmailId)
    ensures Coherent(s.threads, ThreadId) ==> Coherent(ReplayAll(s, es).threads, ThreadId)
    decreases |es|
  {
    if |es| > 0 {
      ProcessNewEmailCoherent(s, es[0]);
      ReplayAllCoherent(ProcessNewEmail(s, es[0]), es[1..]);
    }
  }

  /** Replaying files every replayed message that names its thread and keeps filed what was. */
  lemma {:induction false} ReplayAllFiles(s: State, es: seq<Email>)
    ensures forall m :: m in es && Threaded(m) ==> Filed(ReplayAll(s, es), m)
    ensures forall m :: Filed(s, m) ==> Filed(ReplayAll(s, es), m)
    decreases |es|
  {
    if |es| > 0 {
      var next := ProcessNewEmail(s, es[0]);
      var r := ReplayAll(s, es);
      assert r == ReplayAll(next, es[1..]);
      ReplayAllFiles(next, es[1..]);
      forall m | Filed(s, m)
        ensures Filed(r, m)
      {
        ProcessNewEmailKeepsFiled(s, es[0], m);
      }
      if Threaded(es[0]) {
        ProcessNewEmailFiles(s, es[0]);
      }
      forall m | m in es && Threaded(m)
        ensures Filed(r, m)
      {
        if m != es[0] {
          assert m in es[1..];
        }
      }
    }
  }

  /** Replaying messages that name their threads keeps every thread sound. */
  lemma {:induction false} ReplayAllSound(s: State, es: seq<Email>)
    requires ThreadsSound(s) && forall i :: 0 <= i < |es| ==> Threaded(es[i])
    ensures ThreadsSound(ReplayAll(s, es))
    decreases |es|
  {
    if |es| > 0 {
      var next := ProcessNewEmail(s, es[0]);
      ProcessNewEmailSound(s, es[0]);
      assert forall i :: 0 <= i < |es[1..]| ==> Threaded(es[1..][i]) by {
        forall i | 0 <= i < |es[1..]|
          ensures Threaded(es[1..][i])
        {
          assert es[1..][i] == es[i + 1];
        }
      }
      ReplayAllSound(next, es[1..]);
    }
  }

  /** `UserEntity.ensureSeed` then `EmailEntity.ensureSeed`. */
  function Seeded(s: State, seed: Seed): (r: State)
    ensures r.threads == s.threads && r.folders == s.folders
    ensures |s.users.ids.keys| > 0 ==> r.users == s.users
    ensures |s.emails.ids.keys| > 0 ==> r.emails == s.emails
    ensures |s.users.ids.keys| == 0 && |seed.users| > 0 ==> SeedWritten(s.users, seed.users, UserId, r.users)
    ensures |s.emails.ids.keys| == 0 && |seed.emails| > 0 ==> SeedWritten(s.emails, seed.emails, EmailId, r.emails)
    ensures Coherent(s.users, UserId) ==> Coherent(r.users, UserId)
    ensures Coherent(s.emails, EmailId) ==> Coherent(r.emails, EmailId)
  {
    s.(users := EnsureSeed(s.users, seed.users, UserId),
       emails := EnsureSeed(s.emails, seed.emails, EmailId))
  }

  /** The messages the bootstrap replays: the first `ReplayCount` by id. */
  function Replayed(s: State): (r: seq<Email>)
    ensures |r| <= ReplayCount && |r| <= |s.emails.ids.keys|
    ensures |r| == if |s.emails.ids.keys| <= ReplayCount then |s.emails.ids.keys| else ReplayCount
    ensures forall i :: 0 <= i < |r| ==> r[i] == GetEmail(s, s.emails.ids.keys[i])
  {
    List(s.emails, ReplayCount, InitialEmail)
  }

  /**
   * `/api/init` as written: seed, then replay the listed messages on every
   * call, whether or not they were ingested before.
   */
  function Init(s: State, seed: Seed): (r: State)
    ensures r.users == Seeded(s, seed).users
    ensures Seeded(s, seed).emails.ids.Elems() <= r.emails.ids.Elems()
    ensures forall m :: m in Replayed(Seeded(s, seed)) && Threaded(m) ==> Filed(r, m)
  {
    var seeded := Seeded(s, seed);
    var listed := Replayed(seeded);
    ReplayAllIndexesEmails(seeded, listed);
    ReplayAllFiles(seeded, listed);
    ReplayAll(seeded, listed)
  }

  /**
   * After `/api/init` every replayed message that names its thread sits in
   * that thread and in its views, and every message filed before still is.
   */
  lemma InitFiles(s: State, seed: Seed)
    ensures forall m :: m in Replayed(Seeded(s, seed)) && Threaded(m) ==> Filed(Init(s, seed), m)
    ensures forall m :: Filed(s, m) ==> Filed(Init(s, seed), m)
  {
    var seeded := Seeded(s, seed);
    ReplayAllFiles(seeded, Replayed(seeded));
  }

  /** After the bootstrap the thread index gains exactly the threads the replayed messages name. */
  lemma InitIndexesThreads(s: State, seed: Seed)
    ensures var listed := Replayed(Seeded(s, seed));
      && Init(s, seed).threads.ids.Elems() == s.threads.ids.Elems() + IdSet(listed, MessageThread)
      && forall i :: 0 <= i < |listed| ==> listed[i].threadId in Init(s, seed).threads.ids.Elems()
  {
    var seeded := Seeded(s, seed);
    var listed := Replayed(seeded);
    assert Init(s, seed) == ReplayAll(seeded, listed);
    ReplayAllIndexesThreads(seeded, listed);
    IdSetHas(listed, MessageThread);
  }

  /**
   * `/api/init` as intended: replay only when the message store was empty,
   * that is, only the messages this call seeded.
   */
  function InitOnce(s: State, seed: Seed): (r: State)
    ensures |s.emails.ids.keys| > 0 ==> r == Seeded(s, seed)
    ensures |s.emails.ids.keys| == 0 ==> r == Init(s, seed)
    ensures |s.emails.ids.keys| > 0 ==> r.emails == s.emails && r.threads == s.threads && r.folders == s.folders
  {
    if |s.emails.ids.keys| == 0 then Init(s, seed) else Seeded(s, seed)
  }

  /** Calling the intended bootstrap a second time changes nothing. */
  lemma InitOnceIdempotent(s: State, seed: Seed)
    ensures InitOnce(InitOnce(s, seed), seed) == InitOnce(s, seed)
  {
    var seeded := Seeded(s, seed);
    var r := InitOnce(s, seed);
    EnsureSeedIdempotent(s.users, seed.users, UserId);
    EnsureSeedIdempotent(s.emails, seed.emails, EmailId);
    if |s.emails.ids.keys| == 0 && |seed.emails| > 0 {
      ReplayAllIndexesEmails(seeded, Replayed(seeded));
      assert EmailId(seed.emails[0]) in r.emails.ids.Elems();
      FirstKeyIsElem(r.emails.ids);
      assert |r.emails.ids.keys| > 0;
    } else if |s.emails.ids.keys| == 0 {
      assert seeded.emails == s.emails;
      assert Replayed(seeded) == [];
      assert r == seeded;
    }
  }

  /** The intended bootstrap keeps every thread sound when every stored and seeded message names its thread. */
  lemma InitOnceSound(s: State, seed: Seed)
    requires ThreadsSound(s) && AllRecords(s.emails, Threaded)
    requires forall i :: 0 <= i < |seed.emails| ==> Threaded(seed.emails[i])
    ensures ThreadsSound(InitOnce(s, seed))
  {
    if |s.emails.ids.keys| == 0 {
      var seeded := Seeded(s, seed);
      EnsureSeedKeeps(s.emails, seed.emails, EmailId, Threaded);
      assert seeded.emails.ids.Elems() <= seeded.emails.records.Keys by {
        if |seed.emails| == 0 {
          NoElemsIsEmpty(s.emails.ids);
        }
      }
      ListedKeep(seeded.emails, ReplayCount, InitialEmail, Threaded);
      ReplayAllSound(seeded, Replayed(seeded));
    }
  }

  /** A message store whose index lists `e` alone, stored under its id. */
  predicate HoldsOnly(emails: Store<Email>, e: Email)
  {
    emails.ids == Index([e.id]) && e.id in emails.records && emails.records[e.id] == e
  }

  /** A store without any record; the folder indexes may hold anything. */
  predicate NoRecords(s: State)
  {
    s.emails == EmptyStore() && s.threads == EmptyStore() && s.users == EmptyStore()
  }

  /** Seeding a store without records with one message writes that message alone. */
  lemma SeededOne(s: State, e: Email)
    requires NoRecords(s)
    ensures HoldsOnly(Seeded(s, Seed([], [e])).emails, e)
  {
    var created := Create(s.emails, e.id, e);
    assert CreateAll(created, [e][1..], EmailId) == created;
    assert EnsureSeed(s.emails, [e], EmailId) == created;
    assert created.ids.Elems() == {e.id};
    SameElemsSameIndex(created.ids, Index([e.id]));
  }

  /** Ingesting the one stored message again leaves it the only stored message. */
  lemma HoldsOnlyAfterIngest(s: State, e: Email)
    requires HoldsOnly(s.emails, e)
    ensures HoldsOnly(ProcessNewEmail(s, e).emails, e)
  {
    var r := ProcessNewEmail(s, e);
    assert r.emails.ids.Elems() == {e.id};
    SameElemsSameIndex(r.emails.ids, Index([e.id]));
  }

  /** Replaying one message is ingesting it. */
  lemma ReplayOne(s: State, e: Email)
    ensures ReplayAll(s, [e]) == ProcessNewEmail(s, e)
  {
    assert [e][1..] == [];
  }

  /** With one message stored, the bootstrap ingests exactly it, seeded or not. */
  lemma InitOfOne(s: State, e: Email)
    requires HoldsOnly(Seeded(s, Seed([], [e])).emails, e)
    ensures Init(s, Seed([], [e])) == ProcessNewEmail(Seeded(s, Seed([], [e])), e)
  {
    var seeded := Seeded(s, Seed([], [e]));
    ReplayedOnly(seeded, e);
    ReplayOne(seeded, e);
  }

  /** The replay of a store holding one message lists that message. */
  lemma ReplayedOnly(s: State, e: Email)
    requires HoldsOnly(s.emails, e)
    ensures Replayed(s) == [e]
  {
    var r := Replayed(s);
    assert |s.emails.ids.keys| == 1 && s.emails.ids.keys[0] == e.id;
    assert |r| == 1 && r[0] == e;
  }

  /** The first call seeds the message and ingests it into the thread the store lacked. */
  lemma FirstInitOfOne(s: State, e: Email)
    requires NoRecords(s)
    ensures HoldsOnly(Init(s, Seed([], [e])).emails, e)
    ensures GetThread(Init(s, Seed([], [e])), e.threadId) == AddEmail(InitialThread, e)
  {
    var s1 := Seeded(s, Seed([], [e]));
    SeededOne(s, e);
    InitOfOne(s, e);
    HoldsOnlyAfterIngest(s1, e);
    ProcessNewEmailUpserts(s1, e);
  }

  /** A later call seeds nothing and ingests the stored message into its thread once more. */
  lemma LaterInitOfOne(s: State, e: Email)
    requires HoldsOnly(s.emails, e)
    ensures GetThread(Init(s, Seed([], [e])), e.threadId) == AddEmail(GetThread(s, e.threadId), e)
  {
    assert Seeded(s, Seed([], [e])).emails == s.emails;
    InitOfOne(s, e);
    ProcessNewEmailUpserts(Seeded(s, Seed([], [e])), e);
  }

  /**
   * Calling `/api/init` twice on a store without records lists the seeded
   * message twice in its thread: the second call finds the store seeded,
   * seeds nothing, and replays the message again.
   */
  lemma InitTwiceDuplicates(s: State, e: Email)
    requires NoRecords(s) && e.threadId != ""
    ensures GetThread(Init(s, Seed([], [e])), e.threadId).messages == [e]
    ensures GetThread(Init(Init(s, Seed([], [e])), Seed([], [e])), e.threadId).messages == [e, e]
  {
    FirstInitOfOne(s, e);
    AddEmailToNewThread(InitialThread, e);
    LaterInitOfOne(Init(s, Seed([], [e])), e);
    AddedTwice(InitialThread, e);
  }

  /** Ingesting the same message into a thread twice lists it twice. */
  lemma AddedTwice(t: Thread, e: Email)
    requires t.id == "" && t.lastMessageAt <= e.timestamp && e.threadId != ""
    ensures AddEmail(AddEmail(t, e), e).messages == [e, e]
  {
    AddEmailToNewThread(t, e);
    AddEmailAgain(AddEmail(t, e), e);
  }

  /** The intended bootstrap, called twice on the same store, leaves the thread with its one message. */
  lemma InitOnceTwiceKeepsOne(s: State, e: Email)
    requires NoRecords(s) && e.threadId != ""
    ensures GetThread(InitOnce(InitOnce(s, Seed([], [e])), Seed([], [e])), e.threadId).messages == [e]
  {
    InitTwiceDuplicates(s, e);
    InitOnceIdempotent(s, Seed([], [e]));
  }

  // ---------------------------------------------------------------------
  // POST /api/init/reset
  // ---------------------------------------------------------------------

  /**
   * Deletes the records the three listings return, by the ids they carry,
   * and clears the five folder indexes.
   */
  function Clear(s: State): (r: State)
    ensures r.folders == Cleared
    ensures r.emails.records.Keys <= s.emails.records.Keys && r.emails.ids.Elems() <= s.emails.ids.Elems()
    ensures r.threads.records.Keys <= s.threads.records.Keys && r.threads.ids.Elems() <= s.threads.ids.Elems()
    ensures r.users.records.Keys <= s.users.records.Keys && r.users.ids.Elems() <= s.users.ids.Elems()
    ensures forall e :: e in List(s.emails, ResetEmailCount, InitialEmail) ==> e.id !in r.emails.records
    ensures forall t :: t in List(s.threads, ResetThreadCount, InitialThread) ==> t.id !in r.threads.records
    ensures forall u :: u in List(s.users, ResetUserCount, InitialUser) ==> u.id !in r.users.records
    ensures r.emails.records == s.emails.records - IdSet(List(s.emails, ResetEmailCount, InitialEmail), EmailId)
    ensures r.threads.records == s.threads.records - IdSet(List(s.threads, ResetThreadCount, InitialThread), ThreadId)
    ensures r.users.records == s.users.records - IdSet(List(s.users, ResetUserCount, InitialUser), UserId)
    ensures r.emails.ids.Elems() == s.emails.ids.Elems() - IdSet(List(s.emails, ResetEmailCount, InitialEmail), EmailId)
    ensures r.threads.ids.Elems() == s.threads.ids.Elems() - IdSet(List(s.threads, ResetThreadCount, InitialThread), ThreadId)
    ensures r.users.ids.Elems() == s.users.ids.Elems() - IdSet(List(s.users, ResetUserCount, InitialUser), UserId)
  {
    var emails := List(s.emails, ResetEmailCount, InitialEmail);
    var threads := List(s.threads, ResetThreadCount, InitialThread);
    var users := List(s.users, ResetUserCount, InitialUser);
    assert forall e :: e in emails ==> EmailId(e) in IdSet(emails, EmailId);
    assert forall t :: t in threads ==> ThreadId(t) in IdSet(threads, ThreadId);
    assert forall u :: u in users ==> UserId(u) in IdSet(users, UserId);
    DeleteIdsOf(s.emails, emails, EmailId);
    DeleteIdsOf(s.threads, threads, ThreadId);
    DeleteIdsOf(s.users, users, UserId);
    State(DeleteMany(s.emails, IdsOf(emails, EmailId)),
          DeleteMany(s.threads, IdsOf(threads, ThreadId)),
          DeleteMany(s.users, IdsOf(users, UserId)),
          Cleared)
  }

  /** `/api/init/reset`: clear, then bootstrap as `/api/init` does. */
  function Reset(s: State, seed: Seed): (r: State)
    ensures r.users == Seeded(Clear(s), seed).users
    ensures Seeded(Clear(s), seed).emails.ids.Elems() <= r.emails.ids.Elems()
    ensures Resettable(s) ==> r == Init(EmptyState, seed)
    ensures forall m :: m in Replayed(Seeded(Clear(s), seed)) && Threaded(m) ==> Filed(r, m)
  {
    assert Resettable(s) ==> Clear(s) == EmptyState by {
      if Resettable(s) {
        ClearEmpties(s);
      }
    }
    Init(Clear(s), seed)
  }

  /**
   * After a reset the thread index is the cleared one plus exactly the
   * threads the replayed messages name, and every replayed message that
   * names its thread sits in that thread and in its views.
   */
  lemma ResetFiles(s: State, seed: Seed)
    ensures Reset(s, seed).threads.ids.Elems() == Clear(s).threads.ids.Elems() + IdSet(Replayed(Seeded(Clear(s), seed)), MessageThread)
    ensures forall m :: m in Replayed(Seeded(Clear(s), seed)) && Threaded(m) ==> Filed(Reset(s, seed), m)
  {
    InitIndexesThreads(Clear(s), seed);
    InitFiles(Clear(s), seed);
  }

  /** Every record sits under its own id, and each index lists exactly the stored ids. */
  predicate CoherentState(s: State)
  {
    && Coherent(s.emails, EmailId)
    && Coherent(s.threads, ThreadId)
    && Coherent(s.users, UserId)
  }

  /** A coherent store small enough for each of the reset's listings to reach every record. */
  predicate Resettable(s: State)
  {
    && CoherentState(s)
    && |s.emails.ids.keys| <= ResetEmailCount
    && |s.threads.ids.keys| <= ResetThreadCount
    && |s.users.ids.keys| <= ResetUserCount
  }

  /** Seed data that itself fits the reset's listings. */
  predicate SeedFits(seed: Seed)
  {
    |seed.users| <= ResetUserCount && |seed.emails| <= ResetEmailCount
  }

  /** Clearing a resettable store leaves nothing behind. */
  lemma ClearEmpties(s: State)
    requires Resettable(s)
    ensures Clear(s) == EmptyState
  {
    ListThenDeleteEmpties(s.emails, ResetEmailCount, InitialEmail, EmailId);
    ListThenDeleteEmpties(s.threads, ResetThreadCount, InitialThread, ThreadId);
    ListThenDeleteEmpties(s.users, ResetUserCount, InitialUser, UserId);
  }

  /** Resetting a resettable store yields what bootstrapping an empty one yields, whatever it held. */
  lemma ResetCanonical(s: State, seed: Seed)
    requires Resettable(s)
    ensures Reset(s, seed) == Init(EmptyState, seed) == InitOnce(EmptyState, seed)
  {
    ClearEmpties(s);
  }

  /** A valid index whose elements all lie in `bound` has no more keys than `bound` has elements. */
  lemma KeysWithin(ix: Index, bound: set<string>)
    requires ix.Valid() && ix.Elems() <= bound
    ensures |ix.keys| <= |bound|
  {
    KeysCount(ix);
    SubsetCard(ix.Elems(), bound);
  }

  lemma {:induction false} SubsetCard(a: set<string>, b: set<string>)
    requires a <= b
    ensures |a| <= |b|
    decreases |a|
  {
    if a != {} {
      var x :| x in a;
      SubsetCard(a - {x}, b - {x});
    }
  }

  /** Seeding a store without records writes coherent stores no larger than the seed. */
  lemma SeededFromEmpty(s: State, seed: Seed)
    requires NoRecords(s)
    ensures var seeded := Seeded(s, seed);
      && Coherent(seeded.users, UserId) && Coherent(seeded.emails, EmailId) && Coherent(seeded.threads, ThreadId)
      && seeded.users.ids.Elems() <= IdSet(seed.users, UserId)
      && seeded.emails.ids.Elems() <= IdSet(seed.emails, EmailId)
  {
    assert Coherent(s.users, UserId) && Coherent(s.emails, EmailId);
  }

  /** Bootstrapping a store without records leaves all three stores coherent. */
  lemma InitFromEmptyCoherent(s: State, seed: Seed)
    requires NoRecords(s)
    ensures CoherentState(Init(s, seed))
  {
    var seeded := Seeded(s, seed);
    SeededFromEmpty(s, seed);
    ReplayAllCoherent(seeded, Replayed(seeded));
  }

  /** Bootstrapping a store without records stores no user and no message beyond the seed's. */
  lemma InitFromEmptyWithinSeed(s: State, seed: Seed)
    requires NoRecords(s)
    ensures Init(s, seed).users.ids.Elems() <= IdSet(seed.users, UserId)
    ensures Init(s, seed).emails.ids.Elems() <= IdSet(seed.emails, EmailId)
  {
    var seeded := Seeded(s, seed);
    var listed := Replayed(seeded);
    SeededFromEmpty(s, seed);
    ReplayAllIndexesEmails(seeded, listed);
    ListedIdsIndexed(seeded.emails, ReplayCount, InitialEmail, EmailId);
  }

  /** Bootstrapping a store without records indexes exactly the threads the replayed messages name. */
  lemma InitFromEmptyThreads(s: State, seed: Seed)
    requires NoRecords(s)
    ensures Init(s, seed).threads.ids.Elems() == IdSet(Replayed(Seeded(s, seed)), MessageThread)
  {
    assert s.threads.ids.Elems() == {};
    InitIndexesThreads(s, seed);
    NoneAdded(s.threads.ids.Elems(), IdSet(Replayed(Seeded(s, seed)), MessageThread));
  }

  lemma NoneAdded(a: set<string>, b: set<string>)
    requires a == {}
    ensures a + b == b
  {
  }

  /** Bootstrapping a store without records, with seed data that fits, yields a resettable store. */
  lemma InitFromEmptyResettable(s: State, seed: Seed)
    requires NoRecords(s) && SeedFits(seed)
    ensures Resettable(Init(s, seed))
  {
    InitFromEmptyCoherent(s, seed);
    InitFromEmptyFits(s, seed);
  }

  lemma InitFromEmptyFits(s: State, seed: Seed)
    requires NoRecords(s) && SeedFits(seed)
    ensures var r := Init(s, seed);
      && |r.users.ids.keys| <= ResetUserCount && |r.emails.ids.keys| <= ResetEmailCount
      && |r.threads.ids.keys| <= ResetThreadCount
  {
    var r := Init(s, seed);
    InitFromEmptyCoherent(s, seed);
    InitFromEmptyWithinSeed(s, seed);
    InitFromEmptyThreads(s, seed);
    IndexWithin(r.users.ids, seed.users, UserId, ResetUserCount);
    IndexWithin(r.emails.ids, seed.emails, EmailId, ResetEmailCount);
    IndexWithin(r.threads.ids, Replayed(Seeded(s, seed)), MessageThread, ResetThreadCount);
  }

  /** An index holding only ids some records carry has no more keys than there are records. */
  lemma IndexWithin<T>(ix: Index, vs: seq<T>, idOf: T -> string, cap: nat)
    requires ix.Valid() && ix.Elems() <= IdSet(vs, idOf) && |vs| <= cap
    ensures |ix.keys| <= cap
  {
    IdSetCard(vs, idOf);
    KeysWithin(ix, IdSet(vs, idOf));
  }

  /** Resetting twice is resetting once. */
  lemma ResetIdempotent(s: State, seed: Seed)
    requires Resettable(s) && SeedFits(seed)
    ensures Reset(Reset(s, seed), seed) == Reset(s, seed)
  {
    ResetCanonical(s, seed);
    InitFromEmptyResettable(EmptyState, seed);
    ResetCanonical(Init(EmptyState, seed), seed);
  }

  /** A reset with seed messages that name their threads leaves every thread sound. */
  lemma ResetSound(s: State, seed: Seed)
    requires Resettable(s)
    requires forall i :: 0 <= i < |seed.emails| ==> Threaded(seed.emails[i])
    ensures ThreadsSound(Reset(s, seed))
  {
    ResetCanonical(s, seed);
    InitOnceSound(EmptyState, seed);
  }

  lemma UnionStep(r: set<string>, mid: set<string>, a: set<string>, x: string, c: set<string>)
    requires mid == a + {x} && r == mid + c
    ensures r == a + ({x} + c)
  {
  }
}

=== FILE: composite_index.dfy ===
/**
 * The per-folder composite indexes (`composite:folder:<folder>`): which
 * views a message belongs to, the sort key it is filed under, and the
 * add/remove step `updateCompositeIndexes` performs.
 */
module CompositeIndex {

  import opened Wrappers
  import opened Strings
  import opened OrderedIndex
  import opened MailTypes

  /** One ordered index per folder value, the starred view included. */
  datatype FolderIndexes = FolderIndexes(inbox: Index, sent: Index, drafts: Index, trash: Index, starred: Index)
  {
    function At(f: Folder): Index
    {
      match f
      case Inbox => inbox
      case Sent => sent
      case Drafts => drafts
      case Trash => trash
      case Starred => starred
    }

    function With(f: Folder, ix: Index): (r: FolderIndexes)
      ensures r.At(f) == ix
      ensures forall g :: g != f ==> r.At(g) == At(g)
    {
      match f
      case Inbox => this.(inbox := ix)
      case Sent => this.(sent := ix)
      case Drafts => this.(drafts := ix)
      case Trash => this.(trash := ix)
      case Starred => this.(starred := ix)
    }

    predicate Valid()
    {
      forall f: Folder :: At(f).Valid()
    }
  }

  /** The five indexes after `clear()`. */
  const Cleared: FolderIndexes := FolderIndexes(Empty, Empty, Empty, Empty, Empty)

  lemma SameViewsSameIndexes(a: FolderIndexes, b: FolderIndexes)
    requires forall f: Folder :: a.At(f) == b.At(f)
    ensures a == b
  {
    assert a.At(Inbox) == b.At(Inbox) && a.At(Sent) == b.At(Sent) && a.At(Drafts) == b.At(Drafts);
    assert a.At(Trash) == b.At(Trash) && a.At(Starred) == b.At(Starred);
  }

  /** Digits of the timestamp in the key. */
  const KeyWidth: nat := 15

  /** `${String(timestamp).padStart(15, '0')}:${id}`. */
  function SortKey(e: Email): string
  {
    PadStart(Decimal(e.timestamp), KeyWidth, '0') + ":" + e.id
  }

  /** Whether `updateCompositeIndexes` files `e` under folder `f`. */
  predicate InView(e: Email, f: Folder)
  {
    f == e.folder || (f == Starred && e.isStarred && e.folder != Trash)
  }

  /** The folder list `updateCompositeIndexes` builds. */
  function Views(e: Email): (fs: seq<Folder>)
    ensures forall f :: f in fs <==> InView(e, f)
  {
    [e.folder] + if e.isStarred && e.folder != Trash then [Starred] else []
  }

  function Apply(fi: FolderIndexes, fs: seq<Folder>, key: string, removing: bool): (r: FolderIndexes)
    ensures forall g :: g !in fs ==> r.At(g) == fi.At(g)
    ensures forall g :: g in fs ==>
      r.At(g).Elems() == if removing then fi.At(g).Elems() - {key} else fi.At(g).Elems() + {key}
    ensures fi.Valid() ==> r.Valid()
    decreases |fs|
  {
    if |fs| == 0 then fi
    else
      var f := fs[0];
      var ix := if removing then Remove(fi.At(f), key) else Add(fi.At(f), key);
      var next := fi.With(f, ix);
      assert fi.Valid() ==> next.Valid() by {
        if fi.Valid() {
          forall g: Folder
            ensures next.At(g).Valid()
          {
            assert fi.At(g).Valid();
          }
        }
      }
      assert forall g :: g in fs <==> g == f || g in fs[1..];
      Apply(next, fs[1..], key, removing)
  }

  /**
   * `updateCompositeIndexes(email, isRemoving)`: files or unfiles the key of
   * `e` in its own folder and, when it is starred outside the trash, in the
   * starred view; no other index changes.
   */
  function UpdateCompositeIndexes(fi: FolderIndexes, e: Email, removing: bool): (r: FolderIndexes)
    ensures forall f :: !InView(e, f) ==> r.At(f) == fi.At(f)
    ensures forall f :: InView(e, f) ==>
      r.At(f).Elems() == if removing then fi.At(f).Elems() - {SortKey(e)} else fi.At(f).Elems() + {SortKey(e)}
    ensures fi.Valid() ==> r.Valid()
  {
    Apply(fi, Views(e), SortKey(e), removing)
  }

  /** Removing keys that are not filed changes nothing. */
  lemma RemoveAbsentIsNoop(fi: FolderIndexes, e: Email)
    requires fi.Valid()
    requires forall f :: InView(e, f) ==> SortKey(e) !in fi.At(f).Elems()
    ensures UpdateCompositeIndexes(fi, e, true) == fi
  {
    var r := UpdateCompositeIndexes(fi, e, true);
    forall f: Folder
      ensures r.At(f) == fi.At(f)
    {
      if InView(e, f) {
        SameElemsSameIndex(r.At(f), fi.At(f));
      }
    }
    SameViewsSameIndexes(r, fi);
  }

  /** Add and remove compute the same key, so adding a message and removing it restores every index. */
  lemma AddThenRemoveRestores(fi: FolderIndexes, e: Email)
    requires fi.Valid()
    requires forall f :: InView(e, f) ==> SortKey(e) !in fi.At(f).Elems()
    ensures UpdateCompositeIndexes(UpdateCompositeIndexes(fi, e, false), e, true) == fi
  {
    var r := UpdateCompositeIndexes(UpdateCompositeIndexes(fi, e, false), e, true);
    forall f: Folder
      ensures r.At(f) == fi.At(f)
    {
      if InView(e, f) {
        SameElemsSameIndex(r.At(f), fi.At(f));
      }
    }
    SameViewsSameIndexes(r, fi);
  }

  /** Filing twice is filing once. */
  lemma AddTwiceIsAddOnce(fi: FolderIndexes, e: Email)
    requires fi.Valid()
    ensures UpdateCompositeIndexes(UpdateCompositeIndexes(fi, e, false), e, false)
         == UpdateCompositeIndexes(fi, e, false)
  {
    var once := UpdateCompositeIndexes(fi, e, false);
    var twice := UpdateCompositeIndexes(once, e, false);
    forall f: Folder
      ensures twice.At(f) == once.At(f)
    {
      if InView(e, f) {
        SameElemsSameIndex(twice.At(f), once.At(f));
      }
    }
    SameViewsSameIndexes(twice, once);
  }

  lemma PaddedIsDigits(n: nat)
    ensures forall i :: 0 <= i < |PadStart(Decimal(n), KeyWidth, '0')| ==> IsDigit(PadStart(Decimal(n), KeyWidth, '0')[i])
  {
    var d := Decimal(n);
    var p := PadStart(d, KeyWidth, '0');
    forall i | |p| - |d| <= i < |p|
      ensures IsDigit(p[i])
    {
      assert p[i] == p[|p| - |d|..][i - (|p| - |d|)];
    }
  }

  /** The part of a key after its first colon is the message id, colons included. */
  lemma SortKeyNamesId(e: Email)
    ensures After(SortKey(e), ':') == Some(e.id)
  {
    PaddedIsDigits(e.timestamp);
    AfterJoin(PadStart(Decimal(e.timestamp), KeyWidth, '0'), ':', e.id);
  }

  /** `key.split(':')[1]` recovers the id of a key whose id has no colon. */
  lemma SortKeyIdRoundTrip(e: Email)
    requires ':' !in e.id
    ensures SecondField(SortKey(e), ':') == Some(e.id)
  {
    SortKeyNamesId(e);
    assert e.id + [] == e.id;
    BeforeJoin(e.id, ':', []);
  }

  /** Distinct ids never share a key, so each message has its own index entry. */
  lemma SortKeyInjective(a: Email, b: Email)
    requires SortKey(a) == SortKey(b)
    ensures a.id == b.id
  {
    SortKeyNamesId(a);
    SortKeyNamesId(b);
  }

  /** Below `10^15` milliseconds, ascending keys are ascending timestamps. */
  lemma SortKeyChronological(a: Email, b: Email)
    requires a.timestamp < b.timestamp < Pow10(KeyWidth)
    ensures Less(SortKey(a), SortKey(b))
  {
    SortKeyFixed(a);
    SortKeyFixed(b);
    FixedMonotone(a.timestamp, b.timestamp, KeyWidth);
    LessExtend(Fixed(a.timestamp, KeyWidth), Fixed(b.timestamp, KeyWidth), ":" + a.id, ":" + b.id);
  }

  /** Below 10^15 a key is the fixed-width timestamp, a colon and the id. */
  lemma SortKeyFixed(e: Email)
    requires e.timestamp < Pow10(KeyWidth)
    ensures SortKey(e) == Fixed(e.timestamp, KeyWidth) + (":" + e.id)
  {
    PaddedKey(e.timestamp, KeyWidth, e.id);
  }

  lemma PaddedKey(n: nat, w: nat, id: string)
    requires 1 <= w && n < Pow10(w)
    ensures PadStart(Decimal(n), w, '0') + ":" + id == Fixed(n, w) + (":" + id)
  {
    PaddedDecimalIsFixed(n, w);
    ConcatAssoc(PadStart(Decimal(n), w, '0'), ":", id);
  }

  lemma ConcatAssoc<T>(a: seq<T>, b: seq<T>, c: seq<T>)
    ensures a + b + c == a + (b + c)
  {
  }

  /** Equal timestamps order their keys by message id. */
  lemma SortKeyTieBreak(a: Email, b: Email)
    requires a.timestamp == b.timestamp
    ensures Less(SortKey(a), SortKey(b)) <==> Less(a.id, b.id)
  {
    var p := PadStart(Decimal(a.timestamp), KeyWidth, '0') + ":";
    assert SortKey(a) == p + a.id && SortKey(b) == p + b.id;
    LessCommonPrefix(p, a.id, b.id);
  }
}

=== FILE: entity_store.dfy ===
/**
 * Keyed persistence for one record type, as an indexed entity provides it:
 * a map from id to record plus an ordered index of the ids that `create`
 * has registered. `mutate` writes the record only; `create` writes both.
 */
module EntityStore {

  import opened OrderedIndex

  datatype Store<T> = Store(records: map<string, T>, ids: Index)

  function EmptyStore<T>(): Store<T>
  {
    Store(map[], Empty)
  }

  /** `getState()`: the stored record, or the declared initial value when absent. */
  function Get<T>(st: Store<T>, id: string, initial: T): (r: T)
    ensures id in st.records ==> r == st.records[id]
    ensures id !in st.records ==> r == initial
  {
    if id in st.records then st.records[id] else initial
  }

  /** `exists()`: whether a record has been written under `id`. */
  predicate Exists<T>(st: Store<T>, id: string)
  {
    id in st.records
  }

  /** The write half of `mutate`/`patch`/`save`: the id index is not touched. */
  function Put<T>(st: Store<T>, id: string, v: T): (r: Store<T>)
    ensures r.ids == st.ids
    ensures r.records.Keys == st.records.Keys + {id}
    ensures r.records[id] == v
    ensures forall k :: k in st.records && k != id ==> r.records[k] == st.records[k]
  {
    st.(records := st.records[id := v])
  }

  /** `mutate(id, f)`: read the record (or the initial value), apply `f`, write it back. */
  function Mutate<T>(st: Store<T>, id: string, f: T -> T, initial: T): (r: Store<T>)
    ensures r.ids == st.ids
    ensures r.records == st.records[id := f(Get(st, id, initial))]
  {
    Put(st, id, f(Get(st, id, initial)))
  }

  /** Mutating a record by a function that leaves it as it is changes nothing. */
  lemma MutateFixed<T>(st: Store<T>, id: string, f: T -> T, initial: T)
    requires id in st.records && f(st.records[id]) == st.records[id]
    ensures Mutate(st, id, f, initial) == st
  {
    assert Mutate(st, id, f, initial).records == st.records;
  }

  /** `create(state)`: writes the record and registers its id in the index. */
  function Create<T>(st: Store<T>, id: string, v: T): (r: Store<T>)
    ensures r.records == st.records[id := v]
    ensures r.ids.Elems() == st.ids.Elems() + {id}
    ensures st.ids.Valid() ==> r.ids.Valid()
  {
    Store(st.records[id := v], Add(st.ids, id))
  }

  /** Every indexed id has a record, every record is indexed, and each record is stored under its own id. */
  predicate Coherent<T>(st: Store<T>, idOf: T -> string)
  {
    && st.ids.Valid()
    && st.records.Keys == st.ids.Elems()
    && forall k :: k in st.records ==> idOf(st.records[k]) == k
  }

  lemma CreateCoherent<T>(st: Store<T>, v: T, idOf: T -> string)
    requires Coherent(st, idOf)
    ensures Coherent(Create(st, idOf(v), v), idOf)
  {
  }

  /** The ids of a sequence of records, as a set. */
  function IdSet<T>(vs: seq<T>, idOf: T -> string): set<string>
  {
    set i | 0 <= i < |vs| :: idOf(vs[i])
  }

  lemma IdSetHas<T>(vs: seq<T>, idOf: T -> string)
    ensures forall i :: 0 <= i < |vs| ==> idOf(vs[i]) in IdSet(vs, idOf)
  {
  }

  lemma IdSetCons<T>(vs: seq<T>, idOf: T -> string)
    requires |vs| > 0
    ensures IdSet(vs, idOf) == {idOf(vs[0])} + IdSet(vs[1..], idOf)
  {
    forall x | x in IdSet(vs, idOf)
      ensures x in {idOf(vs[0])} + IdSet(vs[1..], idOf)
    {
      var i :| 0 <= i < |vs| && idOf(vs[i]) == x;
      if i > 0 {
        assert vs[1..][i - 1] == vs[i];
      }
    }
    forall x | x in IdSet(vs[1..], idOf)
      ensures x in IdSet(vs, idOf)
    {
      var i :| 0 <= i < |vs[1..]| && idOf(vs[1..][i]) == x;
      assert vs[i + 1] == vs[1..][i];
    }
  }

  /** Creates each record of `vs` in turn; a later record wins on a repeated id. */
  function CreateAll<T>(st: Store<T>, vs: seq<T>, idOf: T -> string): (r: Store<T>)
    ensures r.ids.Elems() == st.ids.Elems() + IdSet(vs, idOf)
    ensures r.records.Keys == st.records.Keys + IdSet(vs, idOf)
    ensures st.ids.Valid() ==> r.ids.Valid()
    ensures Coherent(st, idOf) ==> Coherent(r, idOf)
    decreases |vs|
  {
    if |vs| == 0 then st
    else
      IdSetCons(vs, idOf);
      var next := Create(st, idOf(vs[0]), vs[0]);
      assert Coherent(st, idOf) ==> Coherent(next, idOf) by {
        if Coherent(st, idOf) {
          CreateCoherent(st, vs[0], idOf);
        }
      }
      CreateAll(next, vs[1..], idOf)
  }

  /** Position `i` holds the last record of `vs` carrying its id: no later record repeats that id. */
  predicate LastWithId<T>(vs: seq<T>, idOf: T -> string, i: int)
  {
    && 0 <= i < |vs|
    && forall j :: i < j < |vs| ==> idOf(vs[j]) != idOf(vs[i])
  }

  /**
   * Creating a sequence of records stores, under each of their ids, the last
   * record carrying it, and leaves every other stored record as it was.
   */
  lemma {:induction false} CreateAllRecords<T>(st: Store<T>, vs: seq<T>, idOf: T -> string)
    ensures var r := CreateAll(st, vs, idOf);
      && (forall k :: k in st.records && k !in IdSet(vs, idOf) ==> r.records[k] == st.records[k])
      && (forall i :: LastWithId(vs, idOf, i) ==> idOf(vs[i]) in r.records && r.records[idOf(vs[i])] == vs[i])
    decreases |vs|
  {
    if |vs| > 0 {
      var next := Create(st, idOf(vs[0]), vs[0]);
      var rest := vs[1..];
      CreateAllRecords(next, rest, idOf);
      IdSetCons(vs, idOf);
      var r := CreateAll(st, vs, idOf);
      assert r == CreateAll(next, rest, idOf);
      forall i | LastWithId(vs, idOf, i)
        ensures idOf(vs[i]) in r.records && r.records[idOf(vs[i])] == vs[i]
      {
        if i == 0 {
          assert idOf(vs[0]) !in IdSet(rest, idOf);
        } else {
          assert rest[i - 1] == vs[i];
          assert LastWithId(rest, idOf, i - 1) by {
            forall j | i - 1 < j < |rest|
              ensures idOf(rest[j]) != idOf(rest[i - 1])
            {
              assert rest[j] == vs[j + 1];
            }
          }
        }
      }
    }
  }

  /**
   * `r` is `st` with the seed records written in: the index lists exactly
   * the seed ids, each seed id holds the last seed record carrying it, and
   * every other record is kept.
   */
  ghost predicate SeedWritten<T>(st: Store<T>, seed: seq<T>, idOf: T -> string, r: Store<T>)
  {
    && r.ids.Elems() == IdSet(seed, idOf)
    && r.records.Keys == st.records.Keys + IdSet(seed, idOf)
    && (forall i :: LastWithId(seed, idOf, i) ==> idOf(seed[i]) in r.records && r.records[idOf(seed[i])] == seed[i])
    && (forall k :: k in st.records && k !in IdSet(seed, idOf) ==> r.records[k] == st.records[k])
  }

  /**
   * `ensureSeed()`: creates the seed records only while the id index is
   * empty; each seed id then holds the last seed record carrying it.
   */
  function EnsureSeed<T>(st: Store<T>, seed: seq<T>, idOf: T -> string): (r: Store<T>)
    ensures |st.ids.keys| > 0 || |seed| == 0 ==> r == st
    ensures |st.ids.keys| == 0 && |seed| > 0 ==> SeedWritten(st, seed, idOf, r)
    ensures st.ids.Valid() ==> r.ids.Valid()
    ensures Coherent(st, idOf) ==> Coherent(r, idOf)
  {
    if |st.ids.keys| == 0 && |seed| > 0 then
      assert st.ids.Elems() == {};
      CreateAllRecords(st, seed, idOf);
      CreateAll(st, seed, idOf)
    else st
  }

  /** `list(null, n)`: the records of the first `n` ids in ascending id order. */
  function List<T>(st: Store<T>, n: nat, initial: T): (r: seq<T>)
    ensures |r| == if |st.ids.keys| <= n then |st.ids.keys| else n
    ensures forall i :: 0 <= i < |r| ==> r[i] == Get(st, st.ids.keys[i], initial)
  {
    var page := Page(st.ids, n);
    assert page == st.ids.keys[..|page|];
    seq(|page|, i requires 0 <= i < |page| => Get(st, page[i], initial))
  }

  /** `deleteMany(ids)`: drops the records and unregisters the ids; unknown ids are ignored. */
  function DeleteMany<T>(st: Store<T>, ks: seq<string>): (r: Store<T>)
    ensures r.records.Keys == st.records.Keys - set k | k in ks
    ensures r.ids.Elems() == st.ids.Elems() - set k | k in ks
    ensures forall k :: k in r.records ==> r.records[k] == st.records[k]
    ensures st.ids.Valid() ==> r.ids.Valid()
  {
    Store(st.records - (set k | k in ks), RemoveAll(st.ids, ks))
  }

  /** Deleting by the ids some records carry drops exactly those ids' records and index entries. */
  lemma DeleteIdsOf<T>(st: Store<T>, vs: seq<T>, idOf: T -> string)
    ensures var r := DeleteMany(st, IdsOf(vs, idOf));
      && r.records == st.records - IdSet(vs, idOf)
      && r.ids.Elems() == st.ids.Elems() - IdSet(vs, idOf)
  {
    assert (set k | k in IdsOf(vs, idOf)) == IdSet(vs, idOf);
  }

  /** `items.map(x => x.id)`: the ids the records carry, in order. */
  function IdsOf<T>(vs: seq<T>, idOf: T -> string): (r: seq<string>)
    ensures |r| == |vs|
    ensures forall k :: k in r <==> k in IdSet(vs, idOf)
  {
    var r := seq(|vs|, i requires 0 <= i < |vs| => idOf(vs[i]));
    assert forall k :: k in IdSet(vs, idOf) ==> k in r by {
      forall k | k in IdSet(vs, idOf)
        ensures k in r
      {
        var i :| 0 <= i < |vs| && idOf(vs[i]) == k;
        assert r[i] == k;
      }
    }
    r
  }

  /**
   * Listing a coherent store whose index fits in one page and deleting the
   * listed ids empties the store: this is what a full reset relies on.
   */
  lemma ListThenDeleteEmpties<T>(st: Store<T>, n: nat, initial: T, idOf: T -> string)
    requires Coherent(st, idOf) && |st.ids.keys| <= n
    ensures DeleteMany(st, IdsOf(List(st, n, initial), idOf)) == EmptyStore()
  {
    var listed := List(st, n, initial);
    var ids := IdsOf(listed, idOf);
    forall k | k in st.ids.Elems()
      ensures k in ids
    {
      var i :| 0 <= i < |st.ids.keys| && st.ids.keys[i] == k;
      assert ids[i] == k;
    }
    var r := DeleteMany(st, ids);
    assert r.records.Keys == {};
    NoElemsIsEmpty(r.ids);
  }

  /** Seeding twice seeds once: the second call finds the index populated, or has nothing to add. */
  lemma EnsureSeedIdempotent<T>(st: Store<T>, seed: seq<T>, idOf: T -> string)
    ensures EnsureSeed(EnsureSeed(st, seed, idOf), seed, idOf) == EnsureSeed(st, seed, idOf)
  {
    var r := EnsureSeed(st, seed, idOf);
    if |st.ids.keys| == 0 && |seed| > 0 {
      assert idOf(seed[0]) in r.ids.Elems();
    }
  }

  /** No more distinct ids than records. */
  lemma {:induction false} IdSetCard<T>(vs: seq<T>, idOf: T -> string)
    ensures |IdSet(vs, idOf)| <= |vs|
    decreases |vs|
  {
    if |vs| == 0 {
      assert IdSet(vs, idOf) == {};
    } else {
      IdSetCons(vs, idOf);
      IdSetCard(vs[1..], idOf);
    }
  }

  /** In a coherent store the records a listing returns carry indexed ids. */
  lemma ListedIdsIndexed<T>(st: Store<T>, n: nat, initial: T, idOf: T -> string)
    requires Coherent(st, idOf)
    ensures IdSet(List(st, n, initial), idOf) <= st.ids.Elems()
  {
    var listed := List(st, n, initial);
    forall k | k in IdSet(listed, idOf)
      ensures k in st.ids.Elems()
    {
      var i :| 0 <= i < |listed| && idOf(listed[i]) == k;
      assert st.ids.keys[i] in st.ids.Elems();
    }
  }

  /** Every record satisfies `p`. */
  predicate AllRecords<T>(st: Store<T>, p: T -> bool)
  {
    forall k :: k in st.records ==> p(st.records[k])
  }

  /** Seeding records that satisfy `p` into a store whose records do keeps them all satisfying it. */
  lemma {:induction false} CreateAllKeeps<T>(st: Store<T>, vs: seq<T>, idOf: T -> string, p: T -> bool)
    requires AllRecords(st, p) && forall i :: 0 <= i < |vs| ==> p(vs[i])
    ensures AllRecords(CreateAll(st, vs, idOf), p)
    decreases |vs|
  {
    if |vs| > 0 {
      CreateAllKeeps(Create(st, idOf(vs[0]), vs[0]), vs[1..], idOf, p);
    }
  }

  lemma EnsureSeedKeeps<T>(st: Store<T>, seed: seq<T>, idOf: T -> string, p: T -> bool)
    requires AllRecords(st, p) && forall i :: 0 <= i < |seed| ==> p(seed[i])
    ensures AllRecords(EnsureSeed(st, seed, idOf), p)
  {
    if |st.ids.keys| == 0 && |seed| > 0 {
      CreateAllKeeps(st, seed, idOf, p);
    }
  }

  /** Listing a store whose indexed ids all have records returns only records that satisfy what all of them do. */
  lemma ListedKeep<T>(st: Store<T>, n: nat, initial: T, p: T -> bool)
    requires AllRecords(st, p) && st.ids.Elems() <= st.records.Keys
    ensures forall i :: 0 <= i < |List(st, n, initial)| ==> p(List(st, n, initial)[i])
  {
    var listed := List(st, n, initial);
    forall i | 0 <= i < |listed|
      ensures p(listed[i])
    {
      assert st.ids.keys[i] in st.ids.Elems();
    }
  }
}

=== FILE: mail_types.dfy ===
/** The records the mail layer stores: messages, thread aggregates and users. */
module MailTypes {

  import opened Wrappers

  /** The folder values a message can carry; `Starred` is also the derived starred view. */
  datatype Folder = Inbox | Sent | Drafts | Trash | Starred

  /** A display name with its mail address. */
  datatype Contact = Contact(name: string, address: string)

  /** A message; `timestamp` is milliseconds since the epoch. */
  datatype Email = Email(
    id: string,
    threadId: string,
    from: Contact,
    to: seq<Contact>,
    subject: string,
    body: string,
    snippet: string,
    timestamp: nat,
    isRead: bool,
    isStarred: bool,
    folder: Folder)

  /** The per-thread aggregate, kept in step with copies of its member messages. */
  datatype Thread = Thread(
    id: string,
    lastMessageAt: nat,
    snippet: string,
    subject: string,
    messages: seq<Email>,
    participantNames: seq<string>,
    unreadCount: nat,
    isStarred: bool,
    folder: Folder)

  datatype User = User(id: string, name: string, address: string)

  /** What `getState()` answers for an id that was never written. */
  const InitialEmail: Email := Email("", "", Contact("", ""), [], "", "", "", 0, false, false, Inbox)
  const InitialThread: Thread := Thread("", 0, "", "", [], [], 0, false, Inbox)
  const InitialUser: User := User("", "", "")

  function EmailId(e: Email): string { e.id }
  function ThreadId(t: Thread): string { t.id }
  function UserId(u: User): string { u.id }

  /** A partial update as a PATCH body carries it: any field may be present. */
  datatype EmailPatch = EmailPatch(
    id: Option<string>,
    threadId: Option<string>,
    from: Option<Contact>,
    to: Option<seq<Contact>>,
    subject: Option<string>,
    body: Option<string>,
    snippet: Option<string>,
    timestamp: Option<nat>,
    isRead: Option<bool>,
    isStarred: Option<bool>,
    folder: Option<Folder>)

  /** `{ isRead: true }`, the patch the mark-read cascade sends. */
  const ReadPatch: EmailPatch :=
    EmailPatch(None, None, None, None, None, None, None, None, Some(true), None, None)

  /** `{ ...e, ...p }`: each field present in the patch replaces the message's own. */
  function Merge(e: Email, p: EmailPatch): (r: Email)
    ensures p == ReadPatch ==> r == e.(isRead := true)
  {
    Email(
      p.id.GetOr(e.id),
      p.threadId.GetOr(e.threadId),
      p.from.GetOr(e.from),
      p.to.GetOr(e.to),
      p.subject.GetOr(e.subject),
      p.body.GetOr(e.body),
      p.snippet.GetOr(e.snippet),
      p.timestamp.GetOr(e.timestamp),
      p.isRead.GetOr(e.isRead),
      p.isStarred.GetOr(e.isStarred),
      p.folder.GetOr(e.folder))
  }

  /** The patch that names no field. */
  const NoChange: EmailPatch :=
    EmailPatch(None, None, None, None, None, None, None, None, None, None, None)

  /** An update naming no field leaves the message as it is. */
  lemma MergeNoChange(e: Email)
    ensures Merge(e, NoChange) == e
  {
  }

  /** Merging the same update twice is merging it once. */
  lemma MergeIdempotent(e: Email, p: EmailPatch)
    ensures Merge(Merge(e, p), p) == Merge(e, p)
  {
  }

  /** A field the update names takes the update's value; every other field keeps the message's own. */
  lemma MergeFields(e: Email, p: EmailPatch)
    ensures var r := Merge(e, p);
      && (p.isRead.Some? ==> r.isRead == p.isRead.value) && (p.isRead.None? ==> r.isRead == e.isRead)
      && (p.isStarred.Some? ==> r.isStarred == p.isStarred.value) && (p.isStarred.None? ==> r.isStarred == e.isStarred)
      && (p.folder.Some? ==> r.folder == p.folder.value) && (p.folder.None? ==> r.folder == e.folder)
      && (p.timestamp.Some? ==> r.timestamp == p.timestamp.value) && (p.timestamp.None? ==> r.timestamp == e.timestamp)
      && (p.threadId.Some? ==> r.threadId == p.threadId.value) && (p.threadId.None? ==> r.threadId == e.threadId)
      && (p.id.Some? ==> r.id == p.id.value) && (p.id.None? ==> r.id == e.id)
      && (p.from.Some? ==> r.from == p.from.value) && (p.from.None? ==> r.from == e.from)
      && (p.to.Some? ==> r.to == p.to.value) && (p.to.None? ==> r.to == e.to)
      && (p.subject.Some? ==> r.subject == p.subject.value) && (p.subject.None? ==> r.subject == e.subject)
      && (p.body.Some? ==> r.body == p.body.value) && (p.body.None? ==> r.body == e.body)
      && (p.snippet.Some? ==> r.snippet == p.snippet.value) && (p.snippet.None? ==> r.snippet == e.snippet)
  {
  }
}

=== FILE: mailbox.dfy ===
/**
 * The mailbox workflows of `MailboxEntity`: ingesting a message, listing
 * the threads of a folder, and generating an inbound message. The whole
 * store is one immutable value and each workflow a function of it.
 */
module Mailbox {

  import opened Wrappers
  import opened Strings
  import opened Sorting
  import opened OrderedIndex
  import opened EntityStore
  import opened MailTypes
  import opened Threads
  import opened CompositeIndex

  /** Messages, thread aggregates, users and the folder indexes. */
  datatype State = State(
    emails: Store<Email>,
    threads: Store<Thread>,
    users: Store<User>,
    folders: FolderIndexes)

  const EmptyState: State := State(EmptyStore(), EmptyStore(), EmptyStore(), Cleared)

  function GetEmail(s: State, id: string): Email
  {
    Get(s.emails, id, InitialEmail)
  }

  function GetThread(s: State, id: string): Thread
  {
    Get(s.threads, id, InitialThread)
  }

  /** Each stored thread agrees with its members; a thread with no id has no members. */
  predicate ThreadSound(t: Thread)
  {
    && DerivedFieldsMatch(t)
    && NoDup(t.participantNames)
    && (t.id == "" ==> |t.messages| == 0)
  }

  predicate ThreadsSound(s: State)
  {
    forall k :: k in s.threads.records ==> ThreadSound(s.threads.records[k])
  }

  lemma EmptyStateSound()
    ensures ThreadsSound(EmptyState) && EmptyState.folders.Valid()
  {
  }

  /**
   * `processNewEmail`: stores the message, files it in its views, and
   * upserts its thread, whose id the thread index then registers.
   */
  function ProcessNewEmail(s: State, e: Email): (r: State)
    ensures r.users == s.users
    ensures r.emails.records == s.emails.records[e.id := e]
    ensures r.emails.ids.Elems() == s.emails.ids.Elems() + {e.id}
    ensures r.threads.ids.Elems() == s.threads.ids.Elems() + {e.threadId}
  {
    var emails := Create(s.emails, e.id, e);
    var folders := UpdateCompositeIndexes(s.folders, e, false);
    var thread := AddEmail(GetThread(s, e.threadId), e);
    State(emails, Create(s.threads, e.threadId, thread), s.users, folders)
  }

  /** Each view the message belongs to gains exactly its key; every other view is untouched. */
  lemma ProcessNewEmailFolders(s: State, e: Email)
    ensures var r := ProcessNewEmail(s, e);
      && (forall f :: InView(e, f) ==> r.folders.At(f).Elems() == s.folders.At(f).Elems() + {SortKey(e)})
      && (forall f :: InView(e, f) ==> SortKey(e) in r.folders.At(f).Elems())
      && (forall f :: !InView(e, f) ==> r.folders.At(f) == s.folders.At(f))
      && (s.folders.Valid() ==> r.folders.Valid())
  {
  }

  /** Only the message's own thread changes, and it now holds the message. */
  lemma ProcessNewEmailThreads(s: State, e: Email)
    ensures var r := ProcessNewEmail(s, e);
      && r.threads.records.Keys == s.threads.records.Keys + {e.threadId}
      && e in GetThread(r, e.threadId).messages
      && (forall k :: k != e.threadId && k in s.threads.records ==> r.threads.records[k] == s.threads.records[k])
  {
    var thread := AddEmail(GetThread(s, e.threadId), e);
    var r := ProcessNewEmail(s, e);
    assert r.threads.records == s.threads.records[e.threadId := thread];
    assert GetThread(r, e.threadId) == thread;
  }

  /** Ingesting a message with a thread id keeps every thread sound. */
  lemma ProcessNewEmailSound(s: State, e: Email)
    requires ThreadsSound(s) && e.threadId != ""
    ensures ThreadsSound(ProcessNewEmail(s, e))
  {
    var prior := GetThread(s, e.threadId);
    AddEmailConsistent(prior, e);
  }

  /** Ingestion keeps the message and thread stores coherent: each record sits under its own id, and the index lists exactly the stored ids. */
  lemma ProcessNewEmailCoherent(s: State, e: Email)
    ensures Coherent(s.emails, EmailId) ==> Coherent(ProcessNewEmail(s, e).emails, EmailId)
    ensures Coherent(s.threads, ThreadId) ==> Coherent(ProcessNewEmail(s, e).threads, ThreadId)
  {
    if Coherent(s.emails, EmailId) {
      CreateCoherent(s.emails, e, EmailId);
    }
    if Coherent(s.threads, ThreadId) {
      CreateCoherent(s.threads, AddEmail(GetThread(s, e.threadId), e), ThreadId);
    }
  }

  /**
   * The thread `processNewEmail` leaves is the stored one with the message
   * absorbed: its members are the prior members, when the thread existed,
   * plus the message, in time order; it keeps a prior subject, gains the
   * sender's name once, and its counters agree with the members.
   */
  lemma ProcessNewEmailThread(s: State, e: Email)
    ensures GetThread(ProcessNewEmail(s, e), e.threadId) == AddEmail(GetThread(s, e.threadId), e)
    ensures var t := GetThread(ProcessNewEmail(s, e), e.threadId); var prior := GetThread(s, e.threadId);
      && t.id == e.threadId && t.folder == e.folder
      && multiset(t.messages) == multiset(if prior.id != "" then prior.messages else []) + multiset{e}
      && SortedBy(t.messages, TimeKey)
      && t.subject == (if prior.id != "" then prior.subject else e.subject)
      && t.participantNames == AddIfAbsent(if prior.id != "" then prior.participantNames else [], e.from.name)
      && t.unreadCount == CountUnread(t.messages) && t.isStarred == AnyStarred(t.messages)
  {
    ProcessNewEmailUpserts(s, e);
    AddEmailShape(GetThread(s, e.threadId), e, GetThread(ProcessNewEmail(s, e), e.threadId));
  }

  /** The fields of `AddEmail(prior, e)` as `ProcessNewEmailThread` states them. */
  lemma AddEmailShape(prior: Thread, e: Email, t: Thread)
    requires t == AddEmail(prior, e)
    ensures && t.id == e.threadId && t.folder == e.folder
      && multiset(t.messages) == multiset(if prior.id != "" then prior.messages else []) + multiset{e}
      && SortedBy(t.messages, TimeKey)
      && t.subject == (if prior.id != "" then prior.subject else e.subject)
      && t.participantNames == AddIfAbsent(if prior.id != "" then prior.participantNames else [], e.from.name)
      && t.unreadCount == CountUnread(t.messages) && t.isStarred == AnyStarred(t.messages)
  {
  }

  /** The thread record `processNewEmail` writes is `AddEmail` of the stored one. */
  lemma ProcessNewEmailUpserts(s: State, e: Email)
    ensures GetThread(ProcessNewEmail(s, e), e.threadId) == AddEmail(GetThread(s, e.threadId), e)
  {
  }

  /**
   * `m` is ingested: it sits among the members of a stored thread with an
   * id, the one it names, and its key is filed in every view it belongs to.
   */
  predicate Filed(s: State, m: Email)
  {
    && m.threadId != ""
    && m.threadId in s.threads.records
    && s.threads.records[m.threadId].id != ""
    && m in s.threads.records[m.threadId].messages
    && forall f :: InView(m, f) ==> SortKey(m) in s.folders.At(f).Elems()
  }

  /** A message that names its thread is filed once ingested. */
  lemma ProcessNewEmailFiles(s: State, e: Email)
    requires e.threadId != ""
    ensures Filed(ProcessNewEmail(s, e), e)
  {
    ProcessNewEmailThreads(s, e);
    ProcessNewEmailFolders(s, e);
  }

  /** Ingesting one message leaves every message filed before still filed. */
  lemma ProcessNewEmailKeepsFiled(s: State, e: Email, m: Email)
    requires Filed(s, m)
    ensures Filed(ProcessNewEmail(s, e), m)
  {
    var r := ProcessNewEmail(s, e);
    ProcessNewEmailThreads(s, e);
    ProcessNewEmailFolders(s, e);
    if m.threadId == e.threadId {
      AddEmailMembers(GetThread(s, e.threadId), e);
      assert GetThread(r, e.threadId) == AddEmail(GetThread(s, e.threadId), e);
    }
  }

  /** After ingestion the message's index key leads the listing back to its thread. */
  lemma ProcessNewEmailKeyResolves(s: State, e: Email)
    requires ':' !in e.id
    ensures ThreadOfKey(ProcessNewEmail(s, e), SortKey(e)) == e.threadId
  {
    SortKeyIdRoundTrip(e);
    assert GetEmail(ProcessNewEmail(s, e), e.id) == e;
  }

  /** Index entries the listing scans per request. */
  const ScanLimit: nat := 200

  /** The thread of the message an index key names; "" when there is none. */
  function ThreadOfKey(s: State, key: string): string
  {
    match SecondField(key, ':')
    case None => ""
    case Some(id) => GetEmail(s, id).threadId
  }

  /** `.filter(t => t.id && t.folder === folder || (folder === 'starred' && t.isStarred))`. */
  predicate Shown(t: Thread, folder: Folder)
  {
    (t.id != "" && t.folder == folder) || (folder == Starred && t.isStarred)
  }

  /**
   * A thread with an id shows in its own folder and, when starred, in the
   * starred view, whatever its folder, the trash included; it shows
   * nowhere else.
   */
  lemma ShownWhere(t: Thread, f: Folder)
    ensures t.id != "" ==> Shown(t, t.folder)
    ensures t.isStarred ==> Shown(t, Starred)
    ensures f != t.folder && f != Starred ==> !Shown(t, f)
    ensures t.id == "" && f != Starred ==> !Shown(t, f)
  {
  }

  /**
   * A key without a colon names no thread; the key of a stored message
   * whose id has no colon names that message's thread.
   */
  lemma ThreadOfKeyResolves(s: State, key: string, e: Email)
    ensures ':' !in key ==> ThreadOfKey(s, key) == ""
    ensures ':' !in e.id && e.id in s.emails.records && s.emails.records[e.id] == e ==>
      ThreadOfKey(s, SortKey(e)) == e.threadId
  {
    if ':' !in e.id {
      SortKeyIdRoundTrip(e);
    }
  }

  /** Descending recency as an ascending key. */
  function RecencyKey(t: Thread): int
  {
    0 - (t.lastMessageAt as int)
  }

  function NonEmpty(s: string): bool
  {
    s != ""
  }

  /** The distinct, non-empty thread ids behind the first `ScanLimit` keys of the folder's index. */
  function ScannedThreadIds(s: State, folder: Folder): (r: seq<string>)
    ensures |r| <= ScanLimit
    ensures NoDup(r)
    ensures forall tid :: tid in r <==> tid != "" && exists k :: k in Page(s.folders.At(folder), ScanLimit) && ThreadOfKey(s, k) == tid
  {
    var keys := Page(s.folders.At(folder), ScanLimit);
    var tids := seq(|keys|, i requires 0 <= i < |keys| => ThreadOfKey(s, keys[i]));
    assert forall tid :: tid in tids <==> exists k :: k in keys && ThreadOfKey(s, k) == tid by {
      forall tid | tid in tids
        ensures exists k :: k in keys && ThreadOfKey(s, k) == tid
      {
        var i :| 0 <= i < |tids| && tids[i] == tid;
        assert keys[i] in keys;
      }
      forall tid | exists k :: k in keys && ThreadOfKey(s, k) == tid
        ensures tid in tids
      {
        var k :| k in keys && ThreadOfKey(s, k) == tid;
        var i :| 0 <= i < |keys| && keys[i] == k;
        assert tids[i] == tid;
      }
    }
    Dedup(Filter(tids, NonEmpty))
  }

  /** The threads the listing fetches, one per scanned id, before filtering. */
  function ScannedThreads(s: State, folder: Folder): (r: seq<Thread>)
    ensures |r| == |ScannedThreadIds(s, folder)|
  {
    var tids := ScannedThreadIds(s, folder);
    seq(|tids|, i requires 0 <= i < |tids| => GetThread(s, tids[i]))
  }

  /** The shown threads among the scanned ones, most recent first: the listing before its cut. */
  function RankedThreads(s: State, folder: Folder): (r: seq<Thread>)
    ensures |r| <= ScanLimit
    ensures forall i, j :: 0 <= i < j < |r| ==> r[i].lastMessageAt >= r[j].lastMessageAt
    ensures forall t :: t in r <==> t in ScannedThreads(s, folder) && Shown(t, folder)
  {
    var threads := ScannedThreads(s, folder);
    var shown := Filter(threads, t => Shown(t, folder));
    var sorted := SortBy(shown, RecencyKey);
    assert forall t :: t in sorted <==> t in shown by {
      forall t
        ensures t in sorted <==> t in shown
      {
        assert t in sorted <==> t in multiset(sorted);
      }
    }
    sorted
  }

  /**
   * `listThreadsByFolder(folder, limit)`: the ranked threads cut by
   * `slice(0, limit)`, which for a negative limit drops that many from the
   * end instead.
   */
  function ListThreadsByFolder(s: State, folder: Folder, limit: int): (r: seq<Thread>)
    ensures var ranked := RankedThreads(s, folder);
      && |r| <= |ranked| && r == ranked[..|r|]
      && (limit >= 0 ==> |r| == if limit < |ranked| then limit else |ranked|)
      && (limit < 0 ==> |r| == if |ranked| + limit > 0 then |ranked| + limit else 0)
    ensures |r| <= ScanLimit
    ensures forall i, j :: 0 <= i < j < |r| ==> r[i].lastMessageAt >= r[j].lastMessageAt
    ensures forall t :: t in r ==> Shown(t, folder) && t in ScannedThreads(s, folder)
  {
    var ranked := RankedThreads(s, folder);
    var r := SliceTo(ranked, limit);
    assert forall i :: 0 <= i < |r| ==> r[i] == ranked[i];
    r
  }

  /** Every thread record is stored under its own id. */
  predicate ThreadsKeyed(s: State)
  {
    forall k :: k in s.threads.records ==> s.threads.records[k].id == k
  }

  /**
   * Every thread record the folder's filter accepts is stored under its own
   * id. Id-less records that are not starred, such as the initial record a
   * patch stores for an absent thread, are never shown and so may sit anywhere.
   */
  predicate ShownKeyed(s: State, folder: Folder)
  {
    forall k :: k in s.threads.records && Shown(s.threads.records[k], folder) ==> s.threads.records[k].id == k
  }

  /** With the shown threads stored under their own ids, the listing names each thread at most once. */
  lemma ListingDistinct(s: State, folder: Folder, limit: int)
    requires ShownKeyed(s, folder)
    ensures DistinctBy(ListThreadsByFolder(s, folder, limit), ThreadId)
  {
    var tids := ScannedThreadIds(s, folder);
    var threads := ScannedThreads(s, folder);
    var p := (t: Thread) => Shown(t, folder);
    forall i, j | 0 <= i < j < |threads| && p(threads[i]) && p(threads[j])
      ensures ThreadId(threads[i]) != ThreadId(threads[j])
    {
      assert threads[i] == GetThread(s, tids[i]) && threads[j] == GetThread(s, tids[j]);
      assert tids[i] in s.threads.records && tids[j] in s.threads.records;
    }
    FilterDistinct(threads, p, ThreadId);
    var shown := Filter(threads, p);
    SortByDistinct(shown, RecencyKey, ThreadId);
    var ranked := RankedThreads(s, folder);
    var r := ListThreadsByFolder(s, folder, limit);
    assert forall i :: 0 <= i < |r| ==> r[i] == ranked[i];
  }

  /**
   * With a limit of at least `ScanLimit`, every shown thread reached through
   * the scanned keys is listed.
   */
  lemma ListingComplete(s: State, folder: Folder, limit: int, key: string)
    requires limit >= ScanLimit
    requires key in Page(s.folders.At(folder), ScanLimit)
    requires ThreadOfKey(s, key) != "" && Shown(GetThread(s, ThreadOfKey(s, key)), folder)
    ensures GetThread(s, ThreadOfKey(s, key)) in ListThreadsByFolder(s, folder, limit)
  {
    ScannedHas(s, folder, key);
    ListingWhole(s, folder, limit);
  }

  /** The thread of every scanned key with a thread id is among the scanned threads. */
  lemma ScannedHas(s: State, folder: Folder, key: string)
    requires key in Page(s.folders.At(folder), ScanLimit) && ThreadOfKey(s, key) != ""
    ensures GetThread(s, ThreadOfKey(s, key)) in ScannedThreads(s, folder)
  {
    var tid := ThreadOfKey(s, key);
    var tids := ScannedThreadIds(s, folder);
    assert tid in tids;
    var i :| 0 <= i < |tids| && tids[i] == tid;
    assert ScannedThreads(s, folder)[i] == GetThread(s, tid);
  }

  /** A limit of at least the scan size cuts nothing from the ranked threads. */
  lemma ListingWhole(s: State, folder: Folder, limit: int)
    requires limit >= ScanLimit
    ensures ListThreadsByFolder(s, folder, limit) == RankedThreads(s, folder)
  {
    var ranked := RankedThreads(s, folder);
    assert ranked[..|ranked|] == ranked;
  }

  /** The sender every simulated inbound message carries. */
  const SimulatorSender: Contact := Contact("System Simulator", "sim@aeromail.dev")

  /** The fixed recipient, body and snippet of a simulated inbound message. */
  const SimulatorRecipient: Contact := Contact("User", "user@aeromail.dev")
  const SimulatorBody: string := "Generated automatically for testing high-performance indexing."
  const SimulatorSnippet: string := "This is a simulated incoming email."

  /**
   * `simulateInbound(subject)`: an unread inbox message from the simulator.
   * The two random UUIDs and the clock reading are parameters.
   */
  function SimulateInbound(s: State, subject: string, id: string, threadId: string, now: nat): (r: (Email, State))
    ensures r.0.id == id && r.0.threadId == threadId && r.0.subject == subject && r.0.timestamp == now
    ensures r.0.folder == Inbox && !r.0.isRead && !r.0.isStarred && r.0.from == SimulatorSender
    ensures r.0.to == [SimulatorRecipient] && r.0.body == SimulatorBody && r.0.snippet == SimulatorSnippet
    ensures r.1 == ProcessNewEmail(s, r.0)
  {
    var e := Email(id, threadId, SimulatorSender, [SimulatorRecipient], subject,
                   SimulatorBody, SimulatorSnippet, now, false, false, Inbox);
    (e, ProcessNewEmail(s, e))
  }

  /** A simulated message under a fresh thread id opens a new unread inbox thread of its own. */
  lemma SimulateInboundNewThread(s: State, subject: string, id: string, threadId: string, now: nat)
    requires threadId !in s.threads.records
    ensures var (e, r) := SimulateInbound(s, subject, id, threadId, now);
      var t := GetThread(r, threadId);
      && t.messages == [e] && t.unreadCount == 1 && !t.isStarred
      && t.subject == subject && t.folder == Inbox && t.lastMessageAt == now
      && SortKey(e) in r.folders.At(Inbox).Elems()
      && r.folders.At(Starred) == s.folders.At(Starred)
  {
    IngestUnreadIntoNewThread(s, SimulateInbound(s, subject, id, threadId, now).0);
  }

  /** An unread, unstarred inbox message for an absent thread opens a thread of its own in the inbox view only. */
  lemma IngestUnreadIntoNewThread(s: State, e: Email)
    requires e.threadId !in s.threads.records
    requires e.folder == Inbox && !e.isRead && !e.isStarred
    ensures var r := ProcessNewEmail(s, e);
      var t := GetThread(r, e.threadId);
      && t.messages == [e] && t.unreadCount == 1 && !t.isStarred
      && t.subject == e.subject && t.folder == Inbox && t.lastMessageAt == e.timestamp
      && SortKey(e) in r.folders.At(Inbox).Elems()
      && r.folders.At(Starred) == s.folders.At(Starred)
  {
    var r := ProcessNewEmail(s, e);
    assert GetThread(r, e.threadId) == AddEmail(InitialThread, e) by {
      ProcessNewEmailUpserts(s, e);
    }
    AddEmailToNewThread(InitialThread, e);
    assert SortKey(e) in r.folders.At(Inbox).Elems() && r.folders.At(Starred) == s.folders.At(Starred) by {
      assert r.folders == UpdateCompositeIndexes(s.folders, e, false);
      assert InView(e, Inbox) && !InView(e, Starred);
    }
  }
}

=== FILE: ordered_index.dfy ===
/**
 * The ordered index behind every entity list and folder view: a set of
 * string keys kept as a strictly ascending sequence, so that `page` reads
 * the keys in ascending JavaScript string order.
 */
module OrderedIndex {

  import opened Strings

  /** Every key is smaller than every later key: ascending, no repeats. */
  predicate StrictlySorted(ks: seq<string>)
  {
    forall i, j :: 0 <= i < j < |ks| ==> Less(ks[i], ks[j])
  }

  datatype Index = Index(keys: seq<string>)
  {
    /** The set of keys the index holds. */
    function Elems(): set<string>
    {
      set k | k in keys
    }

    predicate Valid()
    {
      StrictlySorted(keys)
    }
  }

  const Empty: Index := Index([])

  /** Inserts `k` before the first larger key; a key already present is left alone. */
  function Insert(ks: seq<string>, k: string): (r: seq<string>)
    ensures forall x :: x in r <==> x in ks || x == k
  {
    if |ks| == 0 then [k]
    else if k == ks[0] then ks
    else if Less(k, ks[0]) then [k] + ks
    else [ks[0]] + Insert(ks[1..], k)
  }

  lemma {:induction false} InsertSorted(ks: seq<string>, k: string)
    requires StrictlySorted(ks)
    ensures StrictlySorted(Insert(ks, k))
  {
    if |ks| > 0 && k != ks[0] && !Less(k, ks[0]) {
      LessTotal(k, ks[0]);
      InsertSorted(ks[1..], k);
      var rest := Insert(ks[1..], k);
      forall j | 0 <= j < |rest|
        ensures Less(ks[0], rest[j])
      {
        assert rest[j] in rest;
        if rest[j] != k {
          var m :| 0 <= m < |ks[1..]| && ks[1..][m] == rest[j];
          assert ks[m + 1] == rest[j];
        }
      }
    } else if |ks| > 0 && k != ks[0] {
      forall j | 0 < j < |ks|
        ensures Less(k, ks[j])
      {
        LessTransitive(k, ks[0], ks[j]);
      }
    }
  }

  /** Drops every occurrence of `k`. */
  function Delete(ks: seq<string>, k: string): (r: seq<string>)
    ensures |r| <= |ks|
    ensures forall x :: x in r <==> x in ks && x != k
    ensures k !in ks ==> r == ks
  {
    if |ks| == 0 then []
    else if ks[0] == k then Delete(ks[1..], k)
    else
      assert ks == [ks[0]] + ks[1..];
      [ks[0]] + Delete(ks[1..], k)
  }

  lemma {:induction false} DeleteSorted(ks: seq<string>, k: string)
    requires StrictlySorted(ks)
    ensures StrictlySorted(Delete(ks, k))
  {
    if |ks| > 0 {
      DeleteSorted(ks[1..], k);
      var rest := Delete(ks[1..], k);
      if ks[0] != k {
        forall j | 0 <= j < |rest|
          ensures Less(ks[0], rest[j])
        {
          assert rest[j] in rest;
          var m :| 0 <= m < |ks[1..]| && ks[1..][m] == rest[j];
          assert ks[m + 1] == rest[j];
        }
      }
    }
  }

  /** Two strictly ascending sequences with the same keys are the same sequence. */
  lemma {:induction false} SortedUnique(a: seq<string>, b: seq<string>)
    requires StrictlySorted(a) && StrictlySorted(b)
    requires forall x :: x in a <==> x in b
    ensures a == b
  {
    assert |a| > 0 ==> a[0] in b;
    assert |b| > 0 ==> b[0] in a;
    if |a| > 0 && |b| > 0 {
      assert a[0] in b && b[0] in a;
      if a[0] != b[0] {
        var i :| 0 <= i < |b| && b[i] == a[0];
        var j :| 0 <= j < |a| && a[j] == b[0];
        assert Less(b[0], a[0]) && Less(a[0], b[0]);
        LessAsymmetric(a[0], b[0]);
      }
      forall x
        ensures x in a[1..] <==> x in b[1..]
      {
        if x in a[1..] {
          var i :| 1 <= i < |a| && a[i] == x;
          LessIrreflexive(a[0]);
        }
        if x in b[1..] {
          var i :| 1 <= i < |b| && b[i] == x;
          LessIrreflexive(b[0]);
        }
        assert x in a <==> x == a[0] || x in a[1..];
        assert x in b <==> x == b[0] || x in b[1..];
      }
      SortedUnique(a[1..], b[1..]);
      assert a == [a[0]] + a[1..] && b == [b[0]] + b[1..];
    }
  }

  /** `idx.add(k)`. */
  function Add(ix: Index, k: string): (r: Index)
    ensures r.Elems() == ix.Elems() + {k}
    ensures ix.Valid() ==> r.Valid()
  {
    if ix.Valid() then InsertSorted(ix.keys, k); Index(Insert(ix.keys, k))
    else Index(Insert(ix.keys, k))
  }

  /** `idx.remove(k)`: removing a key that is not there is a no-op. */
  function Remove(ix: Index, k: string): (r: Index)
    ensures r.Elems() == ix.Elems() - {k}
    ensures k !in ix.Elems() ==> r == ix
    ensures ix.Valid() ==> r.Valid()
  {
    if ix.Valid() then DeleteSorted(ix.keys, k); Index(Delete(ix.keys, k))
    else Index(Delete(ix.keys, k))
  }

  /** `removeBatch(ks)`: removes each key of `ks`. */
  function RemoveAll(ix: Index, ks: seq<string>): (r: Index)
    ensures r.Elems() == ix.Elems() - set k | k in ks
    ensures ix.Valid() ==> r.Valid()
    decreases |ks|
  {
    if |ks| == 0 then ix
    else
      assert (set k | k in ks) == {ks[0]} + set k | k in ks[1..];
      RemoveAll(Remove(ix, ks[0]), ks[1..])
  }

  /** Valid indexes holding the same keys are equal. */
  lemma SameElemsSameIndex(a: Index, b: Index)
    requires a.Valid() && b.Valid() && a.Elems() == b.Elems()
    ensures a == b
  {
    forall x
      ensures x in a.keys <==> x in b.keys
    {
      assert x in a.keys <==> x in a.Elems();
      assert x in b.keys <==> x in b.Elems();
    }
    SortedUnique(a.keys, b.keys);
  }

  /** Adding a fresh key and removing it again restores the index exactly. */
  lemma AddThenRemove(ix: Index, k: string)
    requires ix.Valid() && k !in ix.Elems()
    ensures Remove(Add(ix, k), k) == ix
  {
    SameElemsSameIndex(Remove(Add(ix, k), k), ix);
  }

  /** Adding a key twice is the same as adding it once. */
  lemma AddIdempotent(ix: Index, k: string)
    requires ix.Valid()
    ensures Add(Add(ix, k), k) == Add(ix, k)
  {
    SameElemsSameIndex(Add(Add(ix, k), k), Add(ix, k));
  }

  /** `idx.page(null, n)`: the first `n` keys, in ascending order. */
  function Page(ix: Index, n: nat): (r: seq<string>)
    ensures |r| == if |ix.keys| < n then |ix.keys| else n
    ensures forall x :: x in r ==> x in ix.Elems()
    ensures ix.Valid() ==> StrictlySorted(r)
    ensures ix.Valid() ==> forall i, y :: 0 <= i < |r| && y in ix.Elems() && y !in r ==> Less(r[i], y)
  {
    var r := if |ix.keys| <= n then ix.keys else ix.keys[..n];
    assert forall x :: x in r ==> x in ix.keys;
    assert ix.Valid() ==> forall y :: y in ix.Elems() && y !in r ==>
      exists j :: |r| <= j < |ix.keys| && ix.keys[j] == y;
    r
  }

  /** An index with no keys is the empty index. */
  lemma NoElemsIsEmpty(ix: Index)
    requires ix.Elems() == {}
    ensures ix == Empty
  {
    FirstKeyIsElem(ix);
  }

  lemma FirstKeyIsElem(ix: Index)
    ensures |ix.keys| > 0 ==> ix.keys[0] in ix.Elems()
  {
  }

  /** A valid index holds as many keys as distinct elements: no key is repeated. */
  lemma {:induction false} KeysCount(ix: Index)
    requires ix.Valid()
    ensures |ix.keys| == |ix.Elems()|
    decreases |ix.keys|
  {
    if |ix.keys| > 0 {
      var tail := Index(ix.keys[1..]);
      assert tail.Valid();
      KeysCount(tail);
      assert ix.keys[0] !in tail.Elems() by {
        if ix.keys[0] in tail.Elems() {
          var j :| 0 <= j < |tail.keys| && tail.keys[j] == ix.keys[0];
          assert Less(ix.keys[0], ix.keys[j + 1]);
          LessIrreflexive(ix.keys[0]);
        }
      }
      assert ix.Elems() == {ix.keys[0]} + tail.Elems();
    }
  }
}

=== FILE: routes.dfy ===
/**
 * The request handlers of the mail API, each a function from the store to
 * its answer and the store it leaves. Route parameters, the JSON body and
 * the values of `crypto.randomUUID` and `Date.now` are parameters.
 */
module Routes {

  import opened Wrappers
  import opened Strings
  import opened Sorting
  import opened OrderedIndex
  import opened EntityStore
  import opened MailTypes
  import opened Threads
  import opened CompositeIndex
  import opened Mailbox

  /** A handler's answer together with the store it leaves behind. */
  datatype Step<+T> = Step(response: Response<T>, state: State)

  // ---------------------------------------------------------------------
  // GET /api/emails
  // ---------------------------------------------------------------------

  const DefaultLimit: int := 20
  const MaxLimit: int := 100

  /**
   * `Math.min(Number(limit) || 20, 100)`. `None` is a missing or
   * non-numeric parameter (`NaN`), which is falsy like zero.
   */
  function EffectiveLimit(requested: Option<int>): (r: int)
    ensures r <= MaxLimit && r != 0
    ensures requested == None || requested == Some(0) ==> r == DefaultLimit
    ensures requested.Some? && requested.value != 0 && requested.value <= MaxLimit ==> r == requested.value
    ensures requested.Some? && requested.value > MaxLimit ==> r == MaxLimit
  {
    var n := match requested case Some(v) => if v == 0 then DefaultLimit else v case None => DefaultLimit;
    if n < MaxLimit then n else MaxLimit
  }

  /**
   * The thread listing of a folder (inbox when none is given), cut at the
   * effective limit. A negative limit survives the clamp, and the cut then
   * drops threads from the end instead of keeping them from the front.
   */
  function ListEmails(s: State, folder: Option<Folder>, limit: Option<int>): (r: seq<Thread>)
    ensures limit.Some? && limit.value >= 0 ==> |r| <= MaxLimit
    ensures limit == None ==> |r| <= DefaultLimit
    ensures forall i, j :: 0 <= i < j < |r| ==> r[i].lastMessageAt >= r[j].lastMessageAt
    ensures forall t :: t in r ==> Shown(t, folder.GetOr(Inbox))
    ensures var ranked := RankedThreads(s, folder.GetOr(Inbox)); var n := EffectiveLimit(limit);
      && |r| <= |ranked| && r == ranked[..|r|]
      && (n >= 0 ==> |r| == if n < |ranked| then n else |ranked|)
      && (n < 0 ==> |r| == if |ranked| + n > 0 then |ranked| + n else 0)
  {
    var n := EffectiveLimit(limit);
    assert limit == None ==> n == DefaultLimit;
    var r := ListThreadsByFolder(s, folder.GetOr(Inbox), n);
    CutOfRanked(s, folder.GetOr(Inbox), n, r);
    r
  }

  /**
   * `limit=-1` lists every ranked thread but the last, so on a folder with
   * more than `MaxLimit + 1` ranked threads it lists more than `MaxLimit`.
   */
  lemma NegativeLimitExceedsCap(s: State, folder: Folder)
    ensures var n := |RankedThreads(s, folder)|;
      |ListEmails(s, Some(folder), Some(-1))| == if n > 0 then n - 1 else 0
    ensures |RankedThreads(s, folder)| > MaxLimit + 1 ==> |ListEmails(s, Some(folder), Some(-1))| > MaxLimit
  {
    assert EffectiveLimit(Some(-1)) == -1;
  }

  /** The clamp as intended: anything but a positive number falls back to the default. */
  function BoundedLimit(requested: Option<int>): (r: int)
    ensures 1 <= r <= MaxLimit
    ensures requested.Some? && 1 <= requested.value <= MaxLimit ==> r == requested.value
    ensures requested.Some? && requested.value > MaxLimit ==> r == MaxLimit
    ensures requested.None? || requested.value < 1 ==> r == DefaultLimit
  {
    match requested
    case Some(v) => if v < 1 then DefaultLimit else if v < MaxLimit then v else MaxLimit
    case None => DefaultLimit
  }

  /** The listing under the intended clamp: never more than `MaxLimit` threads, nor more than asked for. */
  function ListEmailsBounded(s: State, folder: Option<Folder>, limit: Option<int>): (r: seq<Thread>)
    ensures |r| <= MaxLimit
    ensures limit.Some? && limit.value >= 1 ==> |r| <= limit.value
    ensures forall i, j :: 0 <= i < j < |r| ==> r[i].lastMessageAt >= r[j].lastMessageAt
    ensures forall t :: t in r ==> Shown(t, folder.GetOr(Inbox))
    ensures var ranked := RankedThreads(s, folder.GetOr(Inbox)); var n := BoundedLimit(limit);
      && |r| <= |ranked| && r == ranked[..|r|]
      && |r| == if n < |ranked| then n else |ranked|
  {
    var n := BoundedLimit(limit);
    var r := ListThreadsByFolder(s, folder.GetOr(Inbox), n);
    CutOfRanked(s, folder.GetOr(Inbox), n, r);
    r
  }

  /** What `slice(0, n)` of the ranked threads keeps. */
  lemma CutOfRanked(s: State, folder: Folder, n: int, r: seq<Thread>)
    requires r == ListThreadsByFolder(s, folder, n)
    ensures var ranked := RankedThreads(s, folder);
      && |r| <= |ranked| && r == ranked[..|r|]
      && (n >= 0 ==> |r| == if n < |ranked| then n else |ranked|)
      && (n < 0 ==> |r| == if |ranked| + n > 0 then |ranked| + n else 0)
  {
  }

  /** Both clamps agree on every limit the original handles as intended. */
  lemma BoundedLimitAgrees(requested: Option<int>)
    requires requested.None? || requested.value >= 0
    ensures BoundedLimit(requested) == EffectiveLimit(requested)
  {
  }

  /** Both listings agree on every limit the original handles as intended; a negative limit on a short listing tells them apart. */
  lemma ListEmailsBoundedAgrees(s: State, folder: Option<Folder>, limit: Option<int>)
    ensures limit.None? || limit.value >= 0 ==> ListEmailsBounded(s, folder, limit) == ListEmails(s, folder, limit)
    ensures limit.Some? && limit.value < 0 && 0 < |RankedThreads(s, folder.GetOr(Inbox))| <= DefaultLimit ==>
      ListEmailsBounded(s, folder, limit) != ListEmails(s, folder, limit)
  {
    if limit.None? || limit.value >= 0 {
      BoundedLimitAgrees(limit);
    } else {
      var ranked := RankedThreads(s, folder.GetOr(Inbox));
      if 0 < |ranked| <= DefaultLimit {
        assert |ListEmailsBounded(s, folder, limit)| == |ranked|;
        assert |ListEmails(s, folder, limit)| < |ranked|;
      }
    }
  }

  // ---------------------------------------------------------------------
  // GET /api/emails/:id
  // ---------------------------------------------------------------------

  /** The stored message with its thread as currently stored, or not-found. */
  function GetEmailRoute(s: State, id: string): (r: Response<(Email, Thread)>)
    ensures id !in s.emails.records <==> r == NotFound
    ensures r.Ok? ==> (
      && r.value.0 == s.emails.records[id]
      && (r.value.0.threadId in s.threads.records ==> r.value.1 == s.threads.records[r.value.0.threadId])
      && (r.value.0.threadId !in s.threads.records ==> r.value.1 == InitialThread))
  {
    if id !in s.emails.records then NotFound
    else
      var e := s.emails.records[id];
      Ok((e, GetThread(s, e.threadId)))
  }

  // ---------------------------------------------------------------------
  // PATCH /api/emails/:id
  // ---------------------------------------------------------------------

  /** Replaces the members carrying `id` by `e`, as the thread mutation of a patch does. */
  function WithMember(id: string, e: Email): Thread -> Thread
  {
    (t: Thread) => t.(messages := ReplaceMember(t.messages, id, e))
  }

  /** Whether a patch moves the message between views, the only case that touches the indexes. */
  predicate ViewsChange(prior: Email, e: Email)
  {
    prior.folder != e.folder || prior.isStarred != e.isStarred
  }

  /** The thread fields a patch keeps: it recomputes only the members and the fields derived from them. */
  predicate KeepsThreadFields(before: Thread, after: Thread)
  {
    && after.id == before.id
    && after.subject == before.subject
    && after.participantNames == before.participantNames
    && after.folder == before.folder
  }

  /** A view's keys after a move: the old key leaves the views `prior` was in, then the new key joins the views `e` is in. */
  function MovedKeys(keys: set<string>, prior: Email, e: Email, f: Folder): set<string>
  {
    (keys - (if InView(prior, f) then {SortKey(prior)} else {})) + (if InView(e, f) then {SortKey(e)} else {})
  }

  /**
   * Merges the update into the stored message, swaps it into its thread
   * and refreshes the thread; the folder indexes move from the old keys to
   * the new ones only when the folder or the star flag changed.
   */
  function PatchEmail(s: State, id: string, p: EmailPatch): (r: Step<Email>)
    ensures id !in s.emails.records ==> r == Step(NotFound, s)
    ensures id in s.emails.records ==>
      var prior := s.emails.records[id];
      var e := Merge(prior, p);
      && r.response == Ok(e)
      && r.state.emails.records == s.emails.records[id := e]
      && r.state.emails.ids == s.emails.ids
      && r.state.users == s.users
      && r.state.threads.ids == s.threads.ids
      && r.state.threads.records.Keys == s.threads.records.Keys + {e.threadId}
      && (forall k :: k in s.threads.records && k != e.threadId ==> r.state.threads.records[k] == s.threads.records[k])
      && GetThread(r.state, e.threadId).messages == ReplaceMember(GetThread(s, e.threadId).messages, id, e)
      && KeepsThreadFields(GetThread(s, e.threadId), GetThread(r.state, e.threadId))
      && (!ViewsChange(prior, e) ==> r.state.folders == s.folders)
      && (ViewsChange(prior, e) ==> forall f :: r.state.folders.At(f).Elems() == MovedKeys(s.folders.At(f).Elems(), prior, e, f))
      && (forall f :: !InView(prior, f) && !InView(e, f) ==> r.state.folders.At(f) == s.folders.At(f))
  {
    if id !in s.emails.records then Step(NotFound, s)
    else
      var prior := s.emails.records[id];
      var e := Merge(prior, p);
      var threads := Mutate(Mutate(s.threads, e.threadId, WithMember(id, e), InitialThread), e.threadId, Refresh, InitialThread);
      var folders := if ViewsChange(prior, e)
        then UpdateCompositeIndexes(UpdateCompositeIndexes(s.folders, prior, true), e, false)
        else s.folders;
      MoveKeys(s.folders, prior, e);
      Step(Ok(e), State(Put(s.emails, id, e), threads, s.users, folders))
  }

  /** Unfiling `prior` and then filing `e` leaves each view with `MovedKeys` of its keys. */
  lemma MoveKeys(fi: FolderIndexes, prior: Email, e: Email)
    ensures var r := UpdateCompositeIndexes(UpdateCompositeIndexes(fi, prior, true), e, false);
      forall f :: r.At(f).Elems() == MovedKeys(fi.At(f).Elems(), prior, e, f)
  {
    var mid := UpdateCompositeIndexes(fi, prior, true);
    var r := UpdateCompositeIndexes(mid, e, false);
    forall f: Folder
      ensures r.At(f).Elems() == MovedKeys(fi.At(f).Elems(), prior, e, f)
    {
      assert mid.At(f).Elems() == fi.At(f).Elems() - (if InView(prior, f) then {SortKey(prior)} else {});
    }
  }

  /**
   * When a patch moves a message, its new key is in every view it now
   * belongs to, its old key is gone from every view it left, and the views
   * it was never in are untouched.
   */
  lemma PatchMovesKeys(s: State, id: string, p: EmailPatch, f: Folder)
    requires id in s.emails.records
    requires ViewsChange(s.emails.records[id], Merge(s.emails.records[id], p))
    ensures var prior := s.emails.records[id];
      var e := Merge(prior, p);
      var after := PatchEmail(s, id, p).state.folders.At(f);
      && (InView(e, f) ==> SortKey(e) in after.Elems())
      && (InView(prior, f) && !InView(e, f) ==> SortKey(prior) !in after.Elems())
      && (!InView(prior, f) && !InView(e, f) ==> after == s.folders.At(f))
      && after.Elems() == MovedKeys(s.folders.At(f).Elems(), prior, e, f)
  {
  }

  /** Sending the same update twice answers and leaves what sending it once does. */
  lemma PatchIdempotent(s: State, id: string, p: EmailPatch)
    requires id in s.emails.records
    ensures var r := PatchEmail(s, id, p);
      PatchEmail(r.state, id, p) == r
  {
    var prior := s.emails.records[id];
    var e := Merge(prior, p);
    MergeIdempotent(prior, p);
    var s1 := PatchEmail(s, id, p).state;
    assert s1.emails.records[id] == e;
    var t0 := GetThread(s, e.threadId);
    var swapped := WithMember(id, e)(t0);
    var t1 := Refresh(swapped);
    assert GetThread(s1, e.threadId) == t1;
    ReplaceMemberIdempotent(t0.messages, id, e);
    RefreshIdempotent(swapped);
    PatchEmailFixed(s1, id, p);
  }

  /** A patch that changes nothing in the message and whose thread already holds it leaves the state as it is. */
  lemma PatchEmailFixed(s: State, id: string, p: EmailPatch)
    requires id in s.emails.records && Merge(s.emails.records[id], p) == s.emails.records[id]
    requires var e := s.emails.records[id];
      && e.threadId in s.threads.records
      && ReplaceMember(s.threads.records[e.threadId].messages, id, e) == s.threads.records[e.threadId].messages
      && Refresh(s.threads.records[e.threadId]) == s.threads.records[e.threadId]
    ensures PatchEmail(s, id, p) == Step(Ok(s.emails.records[id]), s)
  {
    var e := s.emails.records[id];
    var t := s.threads.records[e.threadId];
    assert WithMember(id, e)(t) == t;
    MutateFixed(s.threads, e.threadId, WithMember(id, e), InitialThread);
    MutateFixed(s.threads, e.threadId, Refresh, InitialThread);
    assert Put(s.emails, id, e).records == s.emails.records;
  }

  /** Every stored thread stays sound across a patch: the refresh restores the derived fields. */
  lemma PatchEmailSound(s: State, id: string, p: EmailPatch)
    requires ThreadsSound(s)
    ensures ThreadsSound(PatchEmail(s, id, p).state)
  {
    if id in s.emails.records {
      var e := Merge(s.emails.records[id], p);
      var t := GetThread(s, e.threadId);
      assert ThreadSound(t);
      PatchedThreadDerived(t, id, e);
    }
  }

  /**
   * A patch whose `threadId` names no stored thread stores the initial,
   * id-less record under that id, so threads are no longer all keyed; the
   * shown threads still are, which is what the listing needs.
   */
  lemma PatchKeepsShownKeyed(s: State, id: string, p: EmailPatch, folder: Folder)
    requires ThreadsKeyed(s)
    ensures ShownKeyed(PatchEmail(s, id, p).state, folder)
    ensures id in s.emails.records ==>
      var e := Merge(s.emails.records[id], p);
      e.threadId !in s.threads.records ==>
        && GetThread(PatchEmail(s, id, p).state, e.threadId) == InitialThread
        && (e.threadId != "" ==> !ThreadsKeyed(PatchEmail(s, id, p).state))
  {
    if id in s.emails.records {
      var e := Merge(s.emails.records[id], p);
      var r := PatchEmail(s, id, p).state;
      if e.threadId !in s.threads.records {
        assert WithMember(id, e)(InitialThread) == InitialThread;
        assert GetThread(r, e.threadId) == InitialThread;
        assert r.threads.records[e.threadId].id == "";
      }
    }
  }

  /**
   * A patch that keeps the timestamp keeps the swapped thread consistent,
   * member order included, provided the thread's copies of the message
   * carry its stored timestamp.
   */
  lemma PatchEmailKeepsOrder(s: State, id: string, p: EmailPatch)
    requires id in s.emails.records && p.timestamp == None
    requires var e := Merge(s.emails.records[id], p);
      var t := GetThread(s, e.threadId);
      && Consistent(t)
      && forall i :: 0 <= i < |t.messages| && t.messages[i].id == id ==> t.messages[i].timestamp == e.timestamp
    ensures var e := Merge(s.emails.records[id], p);
      Consistent(GetThread(PatchEmail(s, id, p).state, e.threadId))
  {
    var e := Merge(s.emails.records[id], p);
    PatchedThreadConsistent(GetThread(s, e.threadId), id, e);
  }

  // ---------------------------------------------------------------------
  // POST /api/threads/:id/read
  // ---------------------------------------------------------------------

  /**
   * `after` is `before` with the message of every id in `ids` marked read;
   * an id without a message gains a read initial record.
   */
  predicate MarkedRead(before: Store<Email>, ids: set<string>, after: Store<Email>)
  {
    && after.ids == before.ids
    && after.records.Keys == before.records.Keys + ids
    && (forall k :: k in ids ==> after.records[k] == Get(before, k, InitialEmail).(isRead := true))
    && (forall k :: k in before.records && k !in ids ==> after.records[k] == before.records[k])
  }

  /** `patch({ isRead: true })` on one message: absent, it is created from the initial record. */
  function MarkOneRead(emails: Store<Email>, id: string): (r: Store<Email>)
    ensures MarkedRead(emails, {id}, r)
  {
    Mutate(emails, id, e => Merge(e, ReadPatch), InitialEmail)
  }

  /** Marking one id read and then a set of ids marks their union read: the flag is set once and stays set. */
  lemma MarkedReadStep(before: Store<Email>, id: string, mid: Store<Email>, rest: set<string>, after: Store<Email>)
    requires MarkedRead(before, {id}, mid) && MarkedRead(mid, rest, after)
    ensures MarkedRead(before, {id} + rest, after)
  {
    forall k | k in {id} + rest
      ensures after.records[k] == Get(before, k, InitialEmail).(isRead := true)
    {
      if k in rest && k != id {
        assert Get(mid, k, InitialEmail) == Get(before, k, InitialEmail);
      }
    }
  }

  /**
   * `patch({ isRead: true })` on the message of each member, in order; a
   * member whose message is absent leaves a read initial record behind.
   */
  function MarkEmailsRead(emails: Store<Email>, ms: seq<Email>): (r: Store<Email>)
    decreases |ms|
    ensures MarkedRead(emails, IdSet(ms, EmailId), r)
  {
    if |ms| == 0 then emails
    else
      IdSetCons(ms, EmailId);
      var mid := MarkOneRead(emails, ms[0].id);
      var r := MarkEmailsRead(mid, ms[1..]);
      MarkedReadStep(emails, ms[0].id, mid, IdSet(ms[1..], EmailId), r);
      r
  }

  /**
   * Marks every member of an existing thread read, zeroes its unread
   * count, and cascades the read flag to each member's message.
   */
  function MarkThreadRead(s: State, tid: string): (r: Step<Thread>)
    ensures tid !in s.threads.records <==> r == Step(NotFound, s)
    ensures tid in s.threads.records ==>
      && r.response.Ok?
      && r.response.value.unreadCount == 0
      && r.response.value.messages == AllRead(s.threads.records[tid].messages)
      && r.response.value.(messages := s.threads.records[tid].messages, unreadCount := s.threads.records[tid].unreadCount) == s.threads.records[tid]
      && r.state.threads.records == s.threads.records[tid := r.response.value]
      && r.state.threads.ids == s.threads.ids && r.state.users == s.users && r.state.folders == s.folders
      && r.state.emails.ids == s.emails.ids
      && (forall k :: k in IdSet(r.response.value.messages, EmailId) ==> k in r.state.emails.records && r.state.emails.records[k].isRead)
      && MarkedRead(s.emails, IdSet(s.threads.records[tid].messages, EmailId), r.state.emails)
  {
    if tid !in s.threads.records then Step(NotFound, s)
    else
      var t := MarkAllRead(s.threads.records[tid]);
      AllReadIds(s.threads.records[tid].messages);
      Step(Ok(t), s.(threads := Put(s.threads, tid, t), emails := MarkEmailsRead(s.emails, t.messages)))
  }

  /** Marking members read keeps the ids they carry. */
  lemma AllReadIds(ms: seq<Email>)
    ensures IdSet(AllRead(ms), EmailId) == IdSet(ms, EmailId)
  {
    forall k
      ensures k in IdSet(AllRead(ms), EmailId) <==> k in IdSet(ms, EmailId)
    {
      IdSetHas(ms, EmailId);
      IdSetHas(AllRead(ms), EmailId);
    }
  }

  /** Two stores with the same index and the same records per key are the same store. */
  lemma SameStore(a: Store<Email>, b: Store<Email>)
    requires a.ids == b.ids && a.records.Keys == b.records.Keys
    requires forall k :: k in a.records ==> a.records[k] == b.records[k]
    ensures a == b
  {
    assert a.records == b.records;
  }

  /** One message, marked read by a second cascade, keeps the value the first gave it. */
  lemma MarkEmailsReadAgainAt(emails: Store<Email>, ms: seq<Email>, k: string)
    requires k in MarkEmailsRead(emails, ms).records
    ensures MarkEmailsRead(MarkEmailsRead(emails, ms), ms).records[k] == MarkEmailsRead(emails, ms).records[k]
  {
    var once := MarkEmailsRead(emails, ms);
    if k in IdSet(ms, EmailId) {
      assert Get(once, k, InitialEmail) == once.records[k];
    }
  }

  /** Marking the read messages read again changes nothing. */
  lemma MarkEmailsReadIdempotent(emails: Store<Email>, ms: seq<Email>)
    ensures MarkEmailsRead(MarkEmailsRead(emails, ms), ms) == MarkEmailsRead(emails, ms)
  {
    var once := MarkEmailsRead(emails, ms);
    var twice := MarkEmailsRead(once, ms);
    assert twice.records.Keys == once.records.Keys;
    forall k | k in twice.records
      ensures twice.records[k] == once.records[k]
    {
      MarkEmailsReadAgainAt(emails, ms, k);
    }
    SameStore(twice, once);
  }

  /** Running the mark-read handler a second time changes nothing and answers the same. */
  lemma MarkThreadReadIdempotent(s: State, tid: string)
    ensures var r := MarkThreadRead(s, tid);
      MarkThreadRead(r.state, tid) == r
  {
    if tid in s.threads.records {
      var t := MarkAllRead(s.threads.records[tid]);
      MarkAllReadIdempotent(s.threads.records[tid]);
      MarkEmailsReadIdempotent(s.emails, t.messages);
      var s1 := s.(threads := Put(s.threads, tid, t), emails := MarkEmailsRead(s.emails, t.messages));
      assert MarkThreadRead(s, tid) == Step(Ok(t), s1);
      MarkThreadReadFixed(s1, tid, t);
    }
  }

  /** A thread already read, whose messages are already read, is marked read without any change. */
  lemma MarkThreadReadFixed(s: State, tid: string, t: Thread)
    requires tid in s.threads.records && s.threads.records[tid] == t && MarkAllRead(t) == t
    requires MarkEmailsRead(s.emails, t.messages) == s.emails
    ensures MarkThreadRead(s, tid) == Step(Ok(t), s)
  {
    assert Put(s.threads, tid, t).records == s.threads.records;
  }

  /** Every stored thread stays sound when one is marked read. */
  lemma MarkThreadReadSound(s: State, tid: string)
    requires ThreadsSound(s)
    ensures ThreadsSound(MarkThreadRead(s, tid).state)
  {
    if tid in s.threads.records {
      MarkAllReadDerived(s.threads.records[tid]);
    }
  }

  // ---------------------------------------------------------------------
  // POST /api/emails/send
  // ---------------------------------------------------------------------

  /** The sender of every message composed in the client. */
  const CurrentUser: Contact := Contact("Current User", "user@aeromail.dev")

  /** Characters of the body the snippet keeps. */
  const SnippetLength: nat := 100

  /**
   * The message a send request composes. `threadId || randomUUID()`: a
   * missing or empty thread id is replaced by the fresh one.
   */
  function ComposeSent(to: string, subject: string, body: string, threadId: Option<string>,
                       freshId: string, freshThreadId: string, now: nat): (e: Email)
    ensures e.id == freshId && e.subject == subject && e.body == body && e.timestamp == now
    ensures e.folder == Sent && e.isRead && !e.isStarred && e.from == CurrentUser
    ensures |e.snippet| <= SnippetLength && |e.snippet| <= |body| && e.snippet == body[..|e.snippet|]
    ensures |e.snippet| == if |body| < SnippetLength then |body| else SnippetLength
    ensures |e.to| == 1 && e.to[0].address == to && '@' !in e.to[0].name
    ensures |e.to[0].name| <= |to| && e.to[0].name == to[..|e.to[0].name|]
    ensures |e.to[0].name| < |to| ==> to[|e.to[0].name|] == '@'
    ensures threadId.Some? && threadId.value != "" ==> e.threadId == threadId.value
    ensures threadId.None? || threadId.value == "" ==> e.threadId == freshThreadId
  {
    var tid := match threadId case Some(t) => if t != "" then t else freshThreadId case None => freshThreadId;
    Email(freshId, tid, CurrentUser, [Contact(Before(to, '@'), to)], subject, body,
          Prefix(body, SnippetLength), now, true, false, Sent)
  }

  /**
   * Composes the message and ingests it like any other; answers the
   * message, which is then stored under the fresh id and, when it names a
   * thread, filed in that thread and in the sent view.
   */
  function Send(s: State, to: string, subject: string, body: string, threadId: Option<string>,
                freshId: string, freshThreadId: string, now: nat): (r: Step<Email>)
    ensures r.response.Ok?
    ensures r.state == ProcessNewEmail(s, r.response.value)
    ensures r.response.value == ComposeSent(to, subject, body, threadId, freshId, freshThreadId, now)
    ensures freshId in r.state.emails.records && r.state.emails.records[freshId] == r.response.value
    ensures r.state.users == s.users
    ensures r.response.value.threadId != "" ==>
      Filed(r.state, r.response.value) && SortKey(r.response.value) in r.state.folders.At(Sent).Elems()
  {
    var e := ComposeSent(to, subject, body, threadId, freshId, freshThreadId, now);
    var after := ProcessNewEmail(s, e);
    assert e.threadId != "" ==> Filed(after, e) by {
      if e.threadId != "" {
        ProcessNewEmailFiles(s, e);
      }
    }
    Step(Ok(e), after)
  }

  /** The sent view gains exactly the sent message's key, and no other view changes. */
  lemma SendFilesUnderSent(s: State, to: string, subject: string, body: string, threadId: Option<string>,
                           freshId: string, freshThreadId: string, now: nat)
    ensures var r := Send(s, to, subject, body, threadId, freshId, freshThreadId, now);
      && r.state.folders.At(Sent).Elems() == s.folders.At(Sent).Elems() + {SortKey(r.response.value)}
      && SortKey(r.response.value) in r.state.folders.At(Sent).Elems()
      && (forall f :: f != Sent ==> r.state.folders.At(f) == s.folders.At(f))
  {
    var e := ComposeSent(to, subject, body, threadId, freshId, freshThreadId, now);
    ProcessNewEmailFolders(s, e);
  }

  /** The key of a sent message resolves back to its thread, which now holds it. */
  lemma SendKeyResolves(s: State, to: string, subject: string, body: string, threadId: Option<string>,
                        freshId: string, freshThreadId: string, now: nat)
    requires ':' !in freshId
    ensures var r := Send(s, to, subject, body, threadId, freshId, freshThreadId, now);
      && ThreadOfKey(r.state, SortKey(r.response.value)) == r.response.value.threadId
      && r.response.value in GetThread(r.state, r.response.value.threadId).messages
  {
    var e := ComposeSent(to, subject, body, threadId, freshId, freshThreadId, now);
    var after := ProcessNewEmail(s, e);
    assert Send(s, to, subject, body, threadId, freshId, freshThreadId, now) == Step(Ok(e), after);
    ProcessNewEmailThreads(s, e);
    ProcessNewEmailKeyResolves(s, e);
  }

  /** A reply to a sound thread leaves its unread count alone and keeps it sound. */
  lemma SendReplyKeepsUnread(s: State, to: string, subject: string, body: string, tid: string,
                             freshId: string, freshThreadId: string, now: nat)
    requires tid in s.threads.records && s.threads.records[tid].id != "" && tid != ""
    requires ThreadSound(s.threads.records[tid])
    ensures var r := Send(s, to, subject, body, Some(tid), freshId, freshThreadId, now);
      var t := GetThread(r.state, tid);
      && t.unreadCount == s.threads.records[tid].unreadCount
      && ThreadSound(t)
      && |t.messages| == |s.threads.records[tid].messages| + 1
  {
    var e := ComposeSent(to, subject, body, Some(tid), freshId, freshThreadId, now);
    var prior := s.threads.records[tid];
    AddEmailConsistent(prior, e);
    var t := AddEmail(prior, e);
    assert |t.messages| == |multiset(t.messages)|;
    CountUnreadMultiset(t.messages, prior.messages + [e]);
    CountUnreadConcat(prior.messages, [e]);
  }

  // ---------------------------------------------------------------------
  // POST /api/simulation/inbound
  // ---------------------------------------------------------------------

  /** The subject a simulated message gets when the request names none. */
  const DefaultSubject: string := "New Message"

  /** Simulates an inbound message; a missing or empty subject falls back to the default one. */
  function SimulateRoute(s: State, subject: Option<string>, id: string, threadId: string, now: nat): (r: Step<Email>)
    ensures r.response.Ok? && r.response.value.id == id && r.response.value.threadId == threadId
    ensures !r.response.value.isRead && r.response.value.folder == Inbox
    ensures subject.Some? && subject.value != "" ==> r.response.value.subject == subject.value
    ensures subject.None? || subject.value == "" ==> r.response.value.subject == DefaultSubject
    ensures r.state.emails.records == s.emails.records[id := r.response.value]
    ensures r.state == ProcessNewEmail(s, r.response.value)
  {
    var subj := match subject case Some(v) => if v != "" then v else DefaultSubject case None => DefaultSubject;
    var (e, after) := SimulateInbound(s, subj, id, threadId, now);
    Step(Ok(e), after)
  }

  // ---------------------------------------------------------------------
  // GET /api/me
  // ---------------------------------------------------------------------

  /** `MOCK_USERS[0]`, the first seeded user. */
  const FallbackUser: User := User("u1", "Aero User", "user@aeromail.dev")

  /**
   * `users.items[0] || MOCK_USERS[0]` as the route module is written: it
   * never imports `MOCK_USERS`, so with no user stored the fallback is an
   * unbound name and the handler throws.
   */
  function Me(s: State): (r: Response<User>)
    ensures |s.users.ids.keys| > 0 <==> r.Ok?
    ensures r.Ok? ==> r.value == Get(s.users, s.users.ids.keys[0], InitialUser)
  {
    var listed := List(s.users, 1, InitialUser);
    if |listed| > 0 then Ok(listed[0]) else Failed("MOCK_USERS is not defined")
  }

  /** With the fallback in scope, the handler always answers a user. */
  function MeWithFallback(s: State): (r: Response<User>)
    ensures r.Ok?
    ensures |s.users.ids.keys| > 0 ==> r == Me(s)
    ensures |s.users.ids.keys| == 0 ==> r == Ok(FallbackUser)
  {
    var listed := List(s.users, 1, InitialUser);
    Ok(if |listed| > 0 then listed[0] else FallbackUser)
  }

  /** In a coherent user store the answered user is the stored one with the least id. */
  lemma MeIsLeastUser(s: State)
    requires Coherent(s.users, UserId) && |s.users.ids.keys| > 0
    ensures var r := MeWithFallback(s);
      && r.value.id in s.users.records && s.users.records[r.value.id] == r.value
      && forall k :: k in s.users.records && k != r.value.id ==> Less(r.value.id, k)
  {
    var ks := s.users.ids.keys;
    assert ks[0] in s.users.ids.Elems();
    forall k | k in s.users.records && k != ks[0]
      ensures Less(ks[0], k)
    {
      var j :| 0 <= j < |ks| && ks[j] == k;
    }
  }

  /** With nobody stored the handler as written fails where the fallback answers. */
  lemma MeFailsWithoutUsers(s: State)
    requires |s.users.ids.keys| == 0
    ensures Me(s).Failed? && MeWithFallback(s) == Ok(FallbackUser)
  {
  }
}

=== FILE: sorting.dfy ===
/**
 * Sequence utilities with JavaScript array semantics: a stable sort by an
 * integer key (`Array.prototype.sort` with a numeric comparator),
 * `filter`, `slice(0, end)` and `Array.from(new Set(xs))`.
 */
module Sorting {

  /** `xs` is in non-decreasing order of `key`. */
  predicate SortedBy<T>(xs: seq<T>, key: T -> int)
  {
    forall i, j :: 0 <= i < j < |xs| ==> key(xs[i]) <= key(xs[j])
  }

  /** The elements of `xs` whose key is `k`, in their order in `xs`. */
  function KeyFilter<T>(xs: seq<T>, key: T -> int, k: int): seq<T>
  {
    if |xs| == 0 then [] else Keep(xs[0], key, k) + KeyFilter(xs[1..], key, k)
  }

  function Keep<T>(y: T, key: T -> int, k: int): seq<T>
  {
    if key(y) == k then [y] else []
  }

  lemma {:induction false} KeyFilterAppend<T>(a: seq<T>, b: seq<T>, key: T -> int, k: int)
    ensures KeyFilter(a + b, key, k) == KeyFilter(a, key, k) + KeyFilter(b, key, k)
  {
    if |a| > 0 {
      assert (a + b)[1..] == a[1..] + b;
      KeyFilterAppend(a[1..], b, key, k);
    } else {
      assert a + b == b;
    }
  }

  lemma {:induction false} KeyFilterNone<T>(xs: seq<T>, key: T -> int, k: int)
    requires forall y :: y in xs ==> key(y) != k
    ensures KeyFilter(xs, key, k) == []
  {
    if |xs| > 0 {
      assert xs[0] in xs;
      assert forall y :: y in xs[1..] ==> y in xs;
      KeyFilterNone(xs[1..], key, k);
    }
  }

  /** Places `x` after every element whose key is not greater than its own. */
  function InsertBy<T(==)>(xs: seq<T>, x: T, key: T -> int): (r: seq<T>)
    ensures |r| == |xs| + 1
    ensures multiset(r) == multiset(xs) + multiset{x}
  {
    if |xs| == 0 then [x]
    else if key(x) < key(xs[0]) then [x] + xs
    else
      assert xs == [xs[0]] + xs[1..];
      [xs[0]] + InsertBy(xs[1..], x, key)
  }

  lemma {:induction false} InsertBySorted<T>(xs: seq<T>, x: T, key: T -> int)
    requires SortedBy(xs, key)
    ensures SortedBy(InsertBy(xs, x, key), key)
  {
    if |xs| > 0 && key(x) >= key(xs[0]) {
      var rest := InsertBy(xs[1..], x, key);
      InsertBySorted(xs[1..], x, key);
      forall j | 0 <= j < |rest|
        ensures key(xs[0]) <= key(rest[j])
      {
        assert rest[j] in multiset(rest);
        if rest[j] != x {
          assert rest[j] in xs[1..];
        }
      }
    }
  }

  /** Inserting an element with the greatest key appends it. */
  lemma {:induction false} InsertByAtEnd<T>(xs: seq<T>, x: T, key: T -> int)
    requires forall y :: y in xs ==> key(y) <= key(x)
    ensures InsertBy(xs, x, key) == xs + [x]
  {
    if |xs| > 0 {
      assert xs[0] in xs;
      assert forall y :: y in xs[1..] ==> y in xs;
      InsertByAtEnd(xs[1..], x, key);
      assert xs == [xs[0]] + xs[1..];
    }
  }

  lemma KeyFilterCons<T>(y: T, xs: seq<T>, key: T -> int, k: int)
    ensures KeyFilter([y] + xs, key, k) == Keep(y, key, k) + KeyFilter(xs, key, k)
  {
    assert ([y] + xs)[1..] == xs;
  }

  lemma {:induction false} InsertByKeyFilter<T>(xs: seq<T>, x: T, key: T -> int, k: int)
    requires SortedBy(xs, key)
    ensures KeyFilter(InsertBy(xs, x, key), key, k)
         == KeyFilter(xs, key, k) + Keep(x, key, k)
  {
    if |xs| == 0 {
      KeyFilterCons(x, [], key, k);
    } else if key(x) < key(xs[0]) {
      assert InsertBy(xs, x, key) == [x] + xs;
      KeyFilterCons(x, xs, key, k);
      if key(x) == k {
        SortedAboveNone(xs, key, k);
      }
    } else {
      InsertByKeyFilter(xs[1..], x, key, k);
      InsertByKeyFilterStep(xs, x, key, k);
    }
  }

  /** A sorted sequence whose first key exceeds `k` has no element with key `k`. */
  lemma SortedAboveNone<T>(xs: seq<T>, key: T -> int, k: int)
    requires SortedBy(xs, key) && |xs| > 0 && k < key(xs[0])
    ensures KeyFilter(xs, key, k) == []
  {
    forall y | y in xs
      ensures key(y) != k
    {
      var i :| 0 <= i < |xs| && xs[i] == y;
      assert key(xs[0]) <= key(xs[i]);
    }
    KeyFilterNone(xs, key, k);
  }

  lemma KeyFilterConsBoth<T>(y: T, rest: seq<T>, tail: seq<T>, extra: seq<T>, key: T -> int, k: int)
    requires KeyFilter(rest, key, k) == KeyFilter(tail, key, k) + extra
    ensures KeyFilter([y] + rest, key, k) == KeyFilter([y] + tail, key, k) + extra
  {
    KeyFilterCons(y, rest, key, k);
    KeyFilterCons(y, tail, key, k);
    var a, b := Keep(y, key, k), KeyFilter(tail, key, k);
    assert a + (b + extra) == (a + b) + extra;
  }

  lemma InsertByKeyFilterStep<T>(xs: seq<T>, x: T, key: T -> int, k: int)
    requires |xs| > 0 && key(x) >= key(xs[0])
    requires KeyFilter(InsertBy(xs[1..], x, key), key, k)
          == KeyFilter(xs[1..], key, k) + Keep(x, key, k)
    ensures KeyFilter(InsertBy(xs, x, key), key, k)
         == KeyFilter(xs, key, k) + Keep(x, key, k)
  {
    assert InsertBy(xs, x, key) == [xs[0]] + InsertBy(xs[1..], x, key);
    KeyFilterConsBoth(xs[0], InsertBy(xs[1..], x, key), xs[1..], Keep(x, key, k), key, k);
    assert [xs[0]] + xs[1..] == xs;
  }

  /**
   * Stable sort by `key`: insertion sort that keeps equal keys in input
   * order, as `Array.prototype.sort` does since ES2019.
   */
  function SortBy<T(==)>(xs: seq<T>, key: T -> int): (r: seq<T>)
    ensures |r| == |xs|
    ensures multiset(r) == multiset(xs)
    ensures SortedBy(r, key)
  {
    if |xs| == 0 then []
    else
      var init := SortBy(xs[..|xs| - 1], key);
      assert xs == xs[..|xs| - 1] + [xs[|xs| - 1]];
      InsertBySorted(init, xs[|xs| - 1], key);
      InsertBy(init, xs[|xs| - 1], key)
  }

  lemma SplitLast<T>(xs: seq<T>)
    requires |xs| > 0
    ensures xs[..|xs| - 1] + [xs[|xs| - 1]] == xs
  {
  }

  /** One step of the sort: the last element is inserted into the sorted rest. */
  lemma SortByLast<T>(xs: seq<T>, key: T -> int)
    requires |xs| > 0
    ensures SortBy(xs, key) == InsertBy(SortBy(xs[..|xs| - 1], key), xs[|xs| - 1], key)
  {
  }

  lemma KeyFilterSnoc<T>(init: seq<T>, last: T, key: T -> int, k: int)
    ensures KeyFilter(init + [last], key, k) == KeyFilter(init, key, k) + Keep(last, key, k)
  {
    KeyFilterAppend(init, [last], key, k);
    KeyFilterCons(last, [], key, k);
    assert [last] == [last] + [];
  }

  /** The sort is stable: elements with equal keys keep their relative order. */
  lemma {:induction false} SortByStable<T>(xs: seq<T>, key: T -> int, k: int)
    ensures KeyFilter(SortBy(xs, key), key, k) == KeyFilter(xs, key, k)
  {
    if |xs| > 0 {
      var init, last := xs[..|xs| - 1], xs[|xs| - 1];
      SortByLast(xs, key);
      InsertByKeyFilter(SortBy(init, key), last, key, k);
      SortByStable(init, key, k);
      KeyFilterSnoc(init, last, key, k);
      SplitLast(xs);
    }
  }

  /** In a sorted sequence no element before the last has a greater key. */
  lemma SortedLastGreatest<T>(xs: seq<T>, key: T -> int)
    requires |xs| > 0 && SortedBy(xs, key)
    ensures SortedBy(xs[..|xs| - 1], key)
    ensures forall y :: y in xs[..|xs| - 1] ==> key(y) <= key(xs[|xs| - 1])
  {
    forall y | y in xs[..|xs| - 1]
      ensures key(y) <= key(xs[|xs| - 1])
    {
      var i :| 0 <= i < |xs| - 1 && xs[..|xs| - 1][i] == y;
      assert xs[i] == y;
    }
  }

  /** Sorting an already sorted sequence changes nothing. */
  lemma {:induction false} SortBySorted<T>(xs: seq<T>, key: T -> int)
    requires SortedBy(xs, key)
    ensures SortBy(xs, key) == xs
  {
    if |xs| > 0 {
      var init, last := xs[..|xs| - 1], xs[|xs| - 1];
      SortByLast(xs, key);
      SortedLastGreatest(xs, key);
      SortBySorted(init, key);
      InsertByAtEnd(init, last, key);
      SplitLast(xs);
    }
  }

  /** No two elements of `xs` agree on `f`. */
  predicate DistinctBy<T, U(==)>(xs: seq<T>, f: T -> U)
  {
    forall i, j :: 0 <= i < j < |xs| ==> f(xs[i]) != f(xs[j])
  }

  lemma {:induction false} InsertByDistinct<T, U>(xs: seq<T>, x: T, key: T -> int, f: T -> U)
    requires DistinctBy(xs, f)
    requires forall y :: y in xs ==> f(y) != f(x)
    ensures DistinctBy(InsertBy(xs, x, key), f)
  {
    if |xs| > 0 {
      assert xs[0] in xs;
      if key(x) < key(xs[0]) {
        var r := [x] + xs;
        forall i, j | 0 <= i < j < |r|
          ensures f(r[i]) != f(r[j])
        {
          if i == 0 {
            assert r[j] == xs[j - 1];
          }
        }
      } else {
        assert forall y :: y in xs[1..] ==> y in xs;
        InsertByDistinct(xs[1..], x, key, f);
        var rest := InsertBy(xs[1..], x, key);
        var r := [xs[0]] + rest;
        forall i, j | 0 <= i < j < |r|
          ensures f(r[i]) != f(r[j])
        {
          if i == 0 {
            assert r[j] == rest[j - 1];
            assert rest[j - 1] in multiset(rest);
            if rest[j - 1] != x {
              var m :| 1 <= m < |xs| && xs[m] == rest[j - 1];
            }
          } else {
            assert r[i] == rest[i - 1] && r[j] == rest[j - 1];
          }
        }
      }
    }
  }

  /** Sorting never makes two elements agree on `f`. */
  lemma {:induction false} SortByDistinct<T, U>(xs: seq<T>, key: T -> int, f: T -> U)
    requires DistinctBy(xs, f)
    ensures DistinctBy(SortBy(xs, key), f)
  {
    if |xs| > 0 {
      var init, last := xs[..|xs| - 1], xs[|xs| - 1];
      SortByDistinct(init, key, f);
      var sorted := SortBy(init, key);
      forall y | y in sorted
        ensures f(y) != f(last)
      {
        assert y in multiset(init);
        var i :| 0 <= i < |init| && init[i] == y;
      }
      InsertByDistinct(sorted, last, key, f);
    }
  }

  /** `xs.filter(p)`. */
  function Filter<T(!new)>(xs: seq<T>, p: T -> bool): (r: seq<T>)
    ensures |r| <= |xs|
    ensures forall y :: y in r <==> y in xs && p(y)
  {
    if |xs| == 0 then []
    else
      assert forall y :: y in xs <==> y == xs[0] || y in xs[1..];
      (if p(xs[0]) then [xs[0]] else []) + Filter(xs[1..], p)
  }

  /** Prepending an element that no element agrees with keeps a sequence distinct. */
  lemma ConsDistinct<T, U>(y: T, rest: seq<T>, f: T -> U)
    requires DistinctBy(rest, f)
    requires forall z :: z in rest ==> f(z) != f(y)
    ensures DistinctBy([y] + rest, f)
  {
    var r := [y] + rest;
    forall i, j | 0 <= i < j < |r|
      ensures f(r[i]) != f(r[j])
    {
      assert r[j] == rest[j - 1];
      if i > 0 {
        assert r[i] == rest[i - 1];
      }
    }
  }

  /**
   * Filtering keeps apart the elements it keeps: when no two elements that
   * pass `p` agree on `f`, no two elements of the result do.
   */
  lemma {:induction false} FilterDistinct<T(!new), U>(xs: seq<T>, p: T -> bool, f: T -> U)
    requires forall i, j :: 0 <= i < j < |xs| && p(xs[i]) && p(xs[j]) ==> f(xs[i]) != f(xs[j])
    ensures DistinctBy(Filter(xs, p), f)
  {
    if |xs| > 0 {
      var tail := xs[1..];
      forall i, j | 0 <= i < j < |tail| && p(tail[i]) && p(tail[j])
        ensures f(tail[i]) != f(tail[j])
      {
        assert tail[i] == xs[i + 1] && tail[j] == xs[j + 1];
      }
      FilterDistinct(tail, p, f);
      var rest := Filter(tail, p);
      if p(xs[0]) {
        forall z | z in rest
          ensures f(z) != f(xs[0])
        {
          var m :| 0 <= m < |tail| && tail[m] == z;
          assert xs[m + 1] == z;
        }
        ConsDistinct(xs[0], rest, f);
      } else {
        assert [] + rest == rest;
      }
    }
  }

  /** `xs.slice(0, end)`: a negative `end` counts back from the end of `xs`. */
  function SliceTo<T>(xs: seq<T>, end: int): (r: seq<T>)
    ensures |r| <= |xs| && r == xs[..|r|]
    ensures end >= 0 ==> |r| == if end < |xs| then end else |xs|
    ensures end < 0 ==> |r| == if |xs| + end > 0 then |xs| + end else 0
  {
    if end >= 0 then (if end < |xs| then xs[..end] else xs)
    else if |xs| + end > 0 then xs[..|xs| + end]
    else []
  }

  /** No element occurs twice. */
  predicate NoDup<T(==)>(xs: seq<T>)
  {
    forall i, j :: 0 <= i < j < |xs| ==> xs[i] != xs[j]
  }

  /** Appends `x` unless it is already present (`if (!xs.includes(x)) xs.push(x)`). */
  function AddIfAbsent<T(==,!new)>(xs: seq<T>, x: T): (r: seq<T>)
    ensures |r| >= |xs| && r[..|xs|] == xs
    ensures forall y :: y in r <==> y in xs || y == x
    ensures |r| == if x in xs then |xs| else |xs| + 1
    ensures NoDup(xs) ==> NoDup(r)
  {
    if x in xs then xs else xs + [x]
  }

  /** `Array.from(new Set(xs))`: each distinct element once, at its first occurrence. */
  function Dedup<T(==,!new)>(xs: seq<T>): (r: seq<T>)
    ensures |r| <= |xs|
    ensures NoDup(r)
    ensures forall y :: y in r <==> y in xs
  {
    if |xs| == 0 then []
    else
      assert xs == xs[..|xs| - 1] + [xs[|xs| - 1]];
      AddIfAbsent(Dedup(xs[..|xs| - 1]), xs[|xs| - 1])
  }

  /** The position of the first occurrence of `y` in `xs`. */
  function FirstIndex<T(==)>(xs: seq<T>, y: T): (i: nat)
    requires y in xs
    ensures i < |xs| && xs[i] == y
    ensures forall k :: 0 <= k < i ==> xs[k] != y
  {
    if xs[0] == y then 0 else 1 + FirstIndex(xs[1..], y)
  }

  /** Appending an element moves no first occurrence of an element already present. */
  lemma FirstIndexAppend<T>(init: seq<T>, x: T, y: T)
    requires y in init
    ensures FirstIndex(init + [x], y) == FirstIndex(init, y)
  {
    var xs := init + [x];
    var a := FirstIndex(xs, y);
    var b := FirstIndex(init, y);
    assert xs[b] == y;
  }

  /**
   * `Array.from(new Set(xs))` lists the distinct elements in the order of
   * their first occurrence in `xs`, since a `Set` iterates in insertion order.
   */
  lemma {:induction false} DedupFirstOrder<T(!new)>(xs: seq<T>)
    ensures forall i, j :: 0 <= i < j < |Dedup(xs)| ==> FirstIndex(xs, Dedup(xs)[i]) < FirstIndex(xs, Dedup(xs)[j])
  {
    if |xs| > 0 {
      var init := xs[..|xs| - 1];
      var x := xs[|xs| - 1];
      assert xs == init + [x];
      DedupFirstOrder(init);
      forall y | y in init
        ensures FirstIndex(xs, y) == FirstIndex(init, y)
      {
        FirstIndexAppend(init, x, y);
      }
      if x !in init {
        assert FirstIndex(xs, x) == |init|;
      }
    }
  }

  /** A sequence without repetitions passes through the set unchanged. */
  lemma {:induction false} DedupNoDup<T(!new)>(xs: seq<T>)
    requires NoDup(xs)
    ensures Dedup(xs) == xs
  {
    if |xs| > 0 {
      var init := xs[..|xs| - 1];
      assert NoDup(init);
      DedupNoDup(init);
      assert xs[|xs| - 1] !in init;
      assert init + [xs[|xs| - 1]] == xs;
    }
  }
}

=== FILE: strings.dfy ===
/**
 * String facts the mail layer relies on: JavaScript's ordering of strings,
 * the decimal rendering of a timestamp, `padStart`, `split` and `slice`.
 * Strings are sequences of `char`, Unicode scalar values. JavaScript strings
 * are UTF-16 code units; the two agree on every character outside the
 * astral planes, which is all the keys and ids here are assumed to use.
 */
module Strings {

  import opened Wrappers

  /** JavaScript `a < b` on strings: lexicographic on characters, a proper prefix first. */
  predicate Less(a: string, b: string)
  {
    if |a| == 0 then |b| > 0
    else if |b| == 0 then false
    else if a[0] == b[0] then Less(a[1..], b[1..])
    else a[0] < b[0]
  }

  lemma LessIrreflexive(a: string)
    ensures !Less(a, a)
  {
  }

  lemma {:induction false} LessTransitive(a: string, b: string, c: string)
    requires Less(a, b) && Less(b, c)
    ensures Less(a, c)
  {
    if |a| > 0 && |b| > 0 && |c| > 0 && a[0] == b[0] && b[0] == c[0] {
      LessTransitive(a[1..], b[1..], c[1..]);
    }
  }

  lemma {:induction false} LessTotal(a: string, b: string)
    ensures a == b || Less(a, b) || Less(b, a)
  {
    if |a| > 0 && |b| > 0 && a[0] == b[0] {
      LessTotal(a[1..], b[1..]);
      if a[1..] == b[1..] {
        assert a == [a[0]] + a[1..] && b == [b[0]] + b[1..];
      }
    }
  }

  lemma {:induction false} LessAsymmetric(a: string, b: string)
    requires Less(a, b)
    ensures !Less(b, a)
  {
    if Less(b, a) {
      LessTransitive(a, b, a);
      LessIrreflexive(a);
    }
  }

  /** Equal-length strings keep their order whatever follows them. */
  lemma {:induction false} LessExtend(p: string, q: string, x: string, y: string)
    requires |p| == |q| && Less(p, q)
    ensures Less(p + x, q + y)
  {
    assert (p + x)[0] == p[0] && (q + y)[0] == q[0];
    if p[0] == q[0] {
      assert (p + x)[1..] == p[1..] + x;
      assert (q + y)[1..] == q[1..] + y;
      LessExtend(p[1..], q[1..], x, y);
    }
  }

  /** A common prefix does not change the order of two strings. */
  lemma {:induction false} LessCommonPrefix(p: string, x: string, y: string)
    ensures Less(p + x, p + y) <==> Less(x, y)
  {
    if |p| > 0 {
      assert (p + x)[1..] == p[1..] + x;
      assert (p + y)[1..] == p[1..] + y;
      LessCommonPrefix(p[1..], x, y);
    } else {
      assert p + x == x && p + y == y;
    }
  }

  predicate IsDigit(c: char)
  {
    '0' <= c <= '9'
  }

  function DigitChar(d: nat): (c: char)
    requires d < 10
    ensures IsDigit(c)
  {
    (d + 48) as char
  }

  function Pow10(k: nat): (r: nat)
    ensures r >= 1
  {
    if k == 0 then 1 else 10 * Pow10(k - 1)
  }

  /** `String(n)` for a non-negative integer: its decimal digits, no leading zero. */
  function Decimal(n: nat): (r: string)
    ensures |r| > 0
    ensures forall i :: 0 <= i < |r| ==> IsDigit(r[i])
  {
    if n < 10 then [DigitChar(n)] else Decimal(n / 10) + [DigitChar(n % 10)]
  }

  lemma {:induction false} DecimalLength(n: nat, k: nat)
    requires 1 <= k && n < Pow10(k)
    ensures |Decimal(n)| <= k
  {
    if n >= 10 {
      assert k >= 2;
      DecimalLength(n / 10, k - 1);
    }
  }

  function Repeat(c: char, n: nat): (r: string)
    ensures |r| == n
    ensures forall i :: 0 <= i < n ==> r[i] == c
  {
    if n == 0 then [] else Repeat(c, n - 1) + [c]
  }

  /** `s.padStart(width, c)`: pads on the left, never truncates. */
  function PadStart(s: string, width: nat, c: char): (r: string)
    ensures |r| == if |s| >= width then |s| else width
    ensures r[|r| - |s|..] == s
    ensures forall i :: 0 <= i < |r| - |s| ==> r[i] == c
  {
    if |s| >= width then s else Repeat(c, width - |s|) + s
  }

  /** The last `w` decimal digits of `n`, most significant first. */
  function Fixed(n: nat, w: nat): (r: string)
    ensures |r| == w
    ensures forall i :: 0 <= i < w ==> IsDigit(r[i])
  {
    if w == 0 then [] else Fixed(n / 10, w - 1) + [DigitChar(n % 10)]
  }

  lemma {:induction false} FixedZero(w: nat)
    ensures Fixed(0, w) == Repeat('0', w)
  {
    if w > 0 {
      FixedZero(w - 1);
    }
  }

  lemma PadStartSnoc(s: string, d: char, w: nat, c: char)
    requires |s| + 1 <= w
    ensures PadStart(s + [d], w, c) == PadStart(s, w - 1, c) + [d]
  {
    if |s| + 1 < w {
      assert Repeat(c, w - |s| - 1) + (s + [d]) == (Repeat(c, w - 1 - |s|) + s) + [d];
    }
  }

  /** Below `10^w`, padding the decimal rendering to width `w` gives exactly `w` digits of the number. */
  lemma {:induction false} PaddedDecimalIsFixed(n: nat, w: nat)
    requires 1 <= w && n < Pow10(w)
    ensures PadStart(Decimal(n), w, '0') == Fixed(n, w)
  {
    if n < 10 {
      FixedZero(w - 1);
      assert n / 10 == 0 && n % 10 == n;
      PadStartSnoc([], DigitChar(n), w, '0');
      assert [] + [DigitChar(n)] == [DigitChar(n)];
    } else {
      assert w >= 2;
      var hi := Decimal(n / 10);
      DecimalLength(n / 10, w - 1);
      PaddedDecimalIsFixed(n / 10, w - 1);
      PadStartSnoc(hi, DigitChar(n % 10), w, '0');
    }
  }

  /** Fixed-width digit strings sort in numeric order. */
  lemma {:induction false} FixedMonotone(a: nat, b: nat, w: nat)
    requires a < b < Pow10(w)
    ensures Less(Fixed(a, w), Fixed(b, w))
  {
    assert w >= 1;
    var da, db := DigitChar(a % 10), DigitChar(b % 10);
    if a / 10 < b / 10 {
      FixedMonotone(a / 10, b / 10, w - 1);
      LessExtend(Fixed(a / 10, w - 1), Fixed(b / 10, w - 1), [da], [db]);
    } else {
      assert a / 10 == b / 10 && a % 10 < b % 10;
      assert Less([da], [db]) by {
        assert [da][1..] == [] && [db][1..] == [];
      }
      LessCommonPrefix(Fixed(a / 10, w - 1), [da], [db]);
    }
  }

  /** `s.split(c)[0]`: everything before the first `c`, or all of `s`. */
  function Before(s: string, c: char): (r: string)
    ensures |r| <= |s| && r == s[..|r|]
    ensures c !in r
    ensures |r| < |s| ==> s[|r|] == c
  {
    if |s| == 0 || s[0] == c then "" else [s[0]] + Before(s[1..], c)
  }

  /** What follows the first `c` in `s`, if `s` has one. */
  function After(s: string, c: char): (r: Option<string>)
    ensures r.None? <==> c !in s
    ensures r.Some? ==> s == Before(s, c) + [c] + r.value
  {
    var b := Before(s, c);
    if |b| == |s| then None else Some(s[|b| + 1..])
  }

  /** `s.split(c)[1]`: the field between the first and the second `c`; undefined without a `c`. */
  function SecondField(s: string, c: char): (r: Option<string>)
    ensures r.Some? <==> c in s
    ensures r.Some? ==> c !in r.value
  {
    match After(s, c)
    case None => None
    case Some(rest) => Some(Before(rest, c))
  }

  lemma {:induction false} BeforeJoin(p: string, c: char, x: string)
    requires c !in p
    ensures Before(p + [c] + x, c) == p
  {
    if |p| > 0 {
      assert (p + [c] + x)[1..] == p[1..] + [c] + x;
      BeforeJoin(p[1..], c, x);
    }
  }

  /** Splitting `p + c + x` at its first `c` gives back `x` when `p` has none. */
  lemma AfterJoin(p: string, c: char, x: string)
    requires c !in p
    ensures After(p + [c] + x, c) == Some(x)
  {
    BeforeJoin(p, c, x);
    assert (p + [c] + x)[|p| + 1..] == x;
  }

  /** `s.slice(0, n)` for `n >= 0`: the first `n` characters, or all of `s`. */
  function Prefix(s: string, n: nat): (r: string)
    ensures |r| == if |s| < n then |s| else n
    ensures r == s[..|r|]
  {
    if |s| <= n then s else s[..n]
  }
}

=== FILE: threads.dfy ===
/**
 * The thread aggregate: the fields a thread derives from its member
 * messages, how `refreshMetadata` recomputes them, and how a new message,
 * an edited message and "mark thread read" change a thread.
 */
module Threads {

  import opened MailTypes
  import opened Sorting

  function TimeKey(e: Email): int { e.timestamp }

  /** `messages.filter(m => !m.isRead).length`. */
  function CountUnread(ms: seq<Email>): (n: nat)
    ensures n <= |ms|
    ensures n == 0 <==> forall i :: 0 <= i < |ms| ==> ms[i].isRead
  {
    if |ms| == 0 then 0
    else
      assert forall i :: 1 <= i < |ms| ==> ms[i] == ms[1..][i - 1];
      (if ms[0].isRead then 0 else 1) + CountUnread(ms[1..])
  }

  /** The unread count of two runs of members is the sum of theirs. */
  lemma {:induction false} CountUnreadConcat(a: seq<Email>, b: seq<Email>)
    ensures CountUnread(a + b) == CountUnread(a) + CountUnread(b)
    decreases |a|
  {
    if |a| > 0 {
      assert (a + b)[0] == a[0];
      assert (a + b)[1..] == a[1..] + b;
      CountUnreadConcat(a[1..], b);
    } else {
      assert a + b == b;
    }
  }

  /** The unread count does not depend on the order of the members. */
  lemma {:induction false} CountUnreadMultiset(a: seq<Email>, b: seq<Email>)
    requires multiset(a) == multiset(b)
    ensures CountUnread(a) == CountUnread(b)
    decreases |a|
  {
    if |a| == 0 {
      assert |multiset(b)| == 0;
    } else {
      assert a[0] in multiset(b);
      var j :| 0 <= j < |b| && b[j] == a[0];
      var rest := b[..j] + b[j + 1..];
      assert b == b[..j] + [b[j]] + b[j + 1..];
      assert multiset(a[1..]) == multiset(rest) by {
        assert a == [a[0]] + a[1..];
        assert multiset(a) == multiset{a[0]} + multiset(a[1..]);
        assert multiset(b) == multiset(b[..j]) + multiset{b[j]} + multiset(b[j + 1..]);
        assert multiset(rest) == multiset(b[..j]) + multiset(b[j + 1..]);
        assert multiset(a[1..]) == multiset(a) - multiset{a[0]};
        assert multiset(rest) == multiset(b) - multiset{b[j]};
      }
      CountUnreadMultiset(a[1..], rest);
      CountUnreadConcat(b[..j] + [b[j]], b[j + 1..]);
      CountUnreadConcat(b[..j], [b[j]]);
      CountUnreadConcat(b[..j], b[j + 1..]);
    }
  }

  /** `messages.some(m => m.isStarred)`. */
  predicate AnyStarred(ms: seq<Email>)
  {
    exists i :: 0 <= i < |ms| && ms[i].isStarred
  }

  /**
   * The member `[...messages].sort((a, b) => b.timestamp - a.timestamp)[0]`
   * picks: the stable descending sort puts first the earliest-listed
   * member among those with the greatest timestamp.
   */
  function LatestIndex(ms: seq<Email>): (i: nat)
    requires |ms| > 0
    ensures i < |ms|
    ensures forall j :: 0 <= j < |ms| ==> ms[j].timestamp <= ms[i].timestamp
    ensures forall j :: 0 <= j < i ==> ms[j].timestamp < ms[i].timestamp
  {
    if |ms| == 1 then 0
    else
      var k := LatestIndex(ms[..|ms| - 1]);
      if ms[|ms| - 1].timestamp > ms[k].timestamp then |ms| - 1 else k
  }

  /** The derived fields agree with the members. */
  predicate DerivedFieldsMatch(t: Thread)
  {
    && t.unreadCount == CountUnread(t.messages)
    && t.isStarred == AnyStarred(t.messages)
    && (|t.messages| == 0 ==> t.lastMessageAt == 0)
    && (forall m :: m in t.messages ==> m.timestamp <= t.lastMessageAt)
    && (|t.messages| > 0 ==>
          exists m :: m in t.messages && m.timestamp == t.lastMessageAt && m.snippet == t.snippet)
  }

  /** Every invariant a thread aggregate is meant to keep. */
  predicate Consistent(t: Thread)
  {
    && SortedBy(t.messages, TimeKey)
    && DerivedFieldsMatch(t)
    && NoDup(t.participantNames)
  }

  /** `ThreadEntity.refreshMetadata`: recompute the derived fields from the members. */
  function Refresh(t: Thread): (r: Thread)
    ensures |t.messages| == 0 ==> r == t
    ensures r.messages == t.messages && r.id == t.id && r.subject == t.subject
    ensures r.participantNames == t.participantNames && r.folder == t.folder
    ensures |t.messages| > 0 ==> DerivedFieldsMatch(r)
    ensures |t.messages| > 0 ==> exists i :: (0 <= i < |t.messages|
      && t.messages[i].timestamp == r.lastMessageAt && t.messages[i].snippet == r.snippet
      && forall j :: 0 <= j < i ==> t.messages[j].timestamp < r.lastMessageAt)
  {
    var ms := t.messages;
    if |ms| == 0 then t
    else
      var i := LatestIndex(ms);
      var r := t.(unreadCount := CountUnread(ms), isStarred := AnyStarred(ms),
                  lastMessageAt := ms[i].timestamp, snippet := ms[i].snippet);
      assert ms[i] in ms;
      r
  }

  /** Recomputing twice gives what recomputing once gives. */
  lemma RefreshIdempotent(t: Thread)
    ensures Refresh(Refresh(t)) == Refresh(t)
  {
  }

  /** The thread `processNewEmail` writes when `e` arrives and the stored thread is `s`. */
  function AddEmail(s: Thread, e: Email): (r: Thread)
    ensures r.id == e.threadId && r.folder == e.folder
    ensures e in r.messages
    ensures multiset(r.messages) == multiset(if s.id != "" then s.messages else []) + multiset{e}
    ensures SortedBy(r.messages, TimeKey)
  {
    var existing := s.id != "";
    var ms := SortBy((if existing then s.messages else []) + [e], TimeKey);
    assert e in multiset(ms);
    Thread(
      e.threadId,
      if s.lastMessageAt >= e.timestamp then s.lastMessageAt else e.timestamp,
      if e.timestamp >= s.lastMessageAt then e.snippet else s.snippet,
      if existing then s.subject else e.subject,
      ms,
      AddIfAbsent(if existing then s.participantNames else [], e.from.name),
      CountUnread(ms),
      AnyStarred(ms),
      e.folder)
  }

  /** A message for an absent thread starts a thread holding exactly that message. */
  lemma AddEmailToNewThread(s: Thread, e: Email)
    requires s.id == "" && s.lastMessageAt <= e.timestamp
    ensures var r := AddEmail(s, e);
      && r.messages == [e]
      && r.subject == e.subject
      && r.participantNames == [e.from.name]
      && r.unreadCount == (if e.isRead then 0 else 1)
      && r.isStarred == e.isStarred
      && r.lastMessageAt == e.timestamp && r.snippet == e.snippet
  {
    var r := AddEmail(s, e);
    OneCopy(r.messages, e);
    assert r.unreadCount == CountUnread([e]);
    assert r.isStarred == AnyStarred([e]);
    assert r.isStarred == e.isStarred by {
      assert [e][0] == e;
    }
    assert r.participantNames == AddIfAbsent([], e.from.name);
  }

  /** Ingesting a thread's only message once more lists it twice. */
  lemma AddEmailAgain(t: Thread, e: Email)
    requires t.id != "" && t.messages == [e]
    ensures AddEmail(t, e).messages == [e, e]
  {
    TwoCopies(AddEmail(t, e).messages, e);
  }

  lemma TwoCopies<T>(xs: seq<T>, x: T)
    requires multiset(xs) == multiset{x, x}
    ensures xs == [x, x]
  {
    assert |xs| == |multiset(xs)| == 2;
    assert xs[0] in multiset(xs) && xs[1] in multiset(xs);
  }

  lemma OneCopy<T>(xs: seq<T>, x: T)
    requires multiset(xs) == multiset{x}
    ensures xs == [x]
  {
    assert |xs| == |multiset(xs)| == 1;
    assert xs[0] in multiset(xs);
  }

  /** A message for an existing thread keeps its subject and joins its members in time order. */
  lemma AddEmailToExistingThread(s: Thread, e: Email)
    requires s.id != "" && SortedBy(s.messages, TimeKey)
    ensures var r := AddEmail(s, e);
      && r.subject == s.subject
      && r.messages == InsertBy(s.messages, e, TimeKey)
      && r.participantNames == AddIfAbsent(s.participantNames, e.from.name)
      && r.lastMessageAt == (if s.lastMessageAt >= e.timestamp then s.lastMessageAt else e.timestamp)
      && r.snippet == (if e.timestamp >= s.lastMessageAt then e.snippet else s.snippet)
  {
    var xs := s.messages + [e];
    assert xs[..|xs| - 1] == s.messages;
    SortBySorted(s.messages, TimeKey);
  }

  lemma AddEmailMembers(s: Thread, e: Email)
    ensures forall m :: m in AddEmail(s, e).messages <==> m == e || (s.id != "" && m in s.messages)
  {
    MembersOfAdded(AddEmail(s, e).messages, if s.id != "" then s.messages else [], e);
  }

  /** A sequence holding the members of `base` and `e`, counted with multiplicity, holds exactly those. */
  lemma MembersOfAdded(ms: seq<Email>, base: seq<Email>, e: Email)
    requires multiset(ms) == multiset(base) + multiset{e}
    ensures forall m :: m in ms <==> m == e || m in base
  {
    forall m
      ensures m in ms <==> m == e || m in base
    {
      assert m in ms <==> m in multiset(ms);
      assert m in base <==> m in multiset(base);
    }
  }

  /** After `processNewEmail` the thread's timestamp and snippet are those of its latest member. */
  lemma AddEmailLatest(s: Thread, e: Email)
    requires s.id != "" ==> DerivedFieldsMatch(s)
    requires s.id == "" ==> s.lastMessageAt <= e.timestamp
    ensures var r := AddEmail(s, e);
      && (forall m :: m in r.messages ==> m.timestamp <= r.lastMessageAt)
      && exists m :: m in r.messages && m.timestamp == r.lastMessageAt && m.snippet == r.snippet
  {
    var r := AddEmail(s, e);
    AddEmailMembers(s, e);
    LatestAfterAdding(r.messages, if s.id != "" then s.messages else [], e, s.lastMessageAt, s.snippet,
                      r.lastMessageAt, r.snippet);
  }

  /**
   * Adding `e` to members whose latest timestamp is `last` (with snippet
   * `snippet`) makes the later of the two the latest, ties going to `e`.
   */
  lemma LatestAfterAdding(ms: seq<Email>, base: seq<Email>, e: Email, last: nat, snippet: string,
                          last': nat, snippet': string)
    requires forall m :: m in ms <==> m == e || m in base
    requires forall m :: m in base ==> m.timestamp <= last
    requires |base| > 0 ==> exists m :: m in base && m.timestamp == last && m.snippet == snippet
    requires |base| == 0 ==> last <= e.timestamp
    requires last' == (if last >= e.timestamp then last else e.timestamp)
    requires snippet' == (if e.timestamp >= last then e.snippet else snippet)
    ensures forall m :: m in ms ==> m.timestamp <= last'
    ensures exists m :: m in ms && m.timestamp == last' && m.snippet == snippet'
  {
    if e.timestamp < last {
      var w :| w in base && w.timestamp == last && w.snippet == snippet;
      assert w in ms;
    } else {
      assert e in ms;
    }
  }

  /** `processNewEmail` leaves the thread with every invariant, given one it could build on. */
  lemma AddEmailConsistent(s: Thread, e: Email)
    requires if s.id == "" then s.lastMessageAt <= e.timestamp
             else DerivedFieldsMatch(s) && NoDup(s.participantNames)
    ensures Consistent(AddEmail(s, e))
  {
    AddEmailLatest(s, e);
  }

  /** The members with `isRead` set, as the mark-read handler writes them. */
  function AllRead(ms: seq<Email>): (r: seq<Email>)
    ensures |r| == |ms|
    ensures forall i :: 0 <= i < |r| ==> r[i] == ms[i].(isRead := true)
  {
    seq(|ms|, i requires 0 <= i < |ms| => ms[i].(isRead := true))
  }

  /** The thread the mark-read handler writes: every member read, no unread count. */
  function MarkAllRead(t: Thread): (r: Thread)
    ensures r.unreadCount == 0 == CountUnread(r.messages)
    ensures |r.messages| == |t.messages|
    ensures forall i :: 0 <= i < |r.messages| ==> r.messages[i] == t.messages[i].(isRead := true)
    ensures r.(messages := t.messages, unreadCount := t.unreadCount) == t
  {
    t.(messages := AllRead(t.messages), unreadCount := 0)
  }

  /** Marking read again changes nothing. */
  lemma MarkAllReadIdempotent(t: Thread)
    ensures MarkAllRead(MarkAllRead(t)) == MarkAllRead(t)
  {
    assert AllRead(AllRead(t.messages)) == AllRead(t.messages);
  }

  lemma AllReadKeepsStars(ms: seq<Email>)
    ensures AnyStarred(AllRead(ms)) == AnyStarred(ms)
  {
    var rs := AllRead(ms);
    if AnyStarred(ms) {
      var i :| 0 <= i < |ms| && ms[i].isStarred;
      assert rs[i].isStarred;
    }
    if AnyStarred(rs) {
      var i :| 0 <= i < |rs| && rs[i].isStarred;
      assert ms[i].isStarred;
    }
  }

  lemma AllReadKeepsLatest(ms: seq<Email>, last: nat, snippet: string)
    requires forall m :: m in ms ==> m.timestamp <= last
    requires |ms| > 0 ==> exists m :: m in ms && m.timestamp == last && m.snippet == snippet
    ensures forall m :: m in AllRead(ms) ==> m.timestamp <= last
    ensures |ms| > 0 ==> exists m :: m in AllRead(ms) && m.timestamp == last && m.snippet == snippet
  {
    var rs := AllRead(ms);
    forall m | m in rs
      ensures m.timestamp <= last
    {
      var i :| 0 <= i < |rs| && rs[i] == m;
      assert ms[i] in ms;
    }
    if |ms| > 0 {
      var w :| w in ms && w.timestamp == last && w.snippet == snippet;
      var i :| 0 <= i < |ms| && ms[i] == w;
      assert rs[i] in rs;
    }
  }

  /** Marking read keeps the derived fields in step with the members. */
  lemma MarkAllReadDerived(t: Thread)
    requires DerivedFieldsMatch(t)
    ensures DerivedFieldsMatch(MarkAllRead(t))
  {
    AllReadKeepsStars(t.messages);
    AllReadKeepsLatest(t.messages, t.lastMessageAt, t.snippet);
  }

  /** Marking read keeps a consistent thread consistent. */
  lemma MarkAllReadConsistent(t: Thread)
    requires Consistent(t)
    ensures Consistent(MarkAllRead(t))
  {
    AllReadKeepsStars(t.messages);
    AllReadKeepsLatest(t.messages, t.lastMessageAt, t.snippet);
    var rs := AllRead(t.messages);
    assert SortedBy(rs, TimeKey) by {
      assert forall i :: 0 <= i < |rs| ==> rs[i].timestamp == t.messages[i].timestamp;
    }
  }

  /** `messages.map(m => m.id === id ? e : m)`. */
  function ReplaceMember(ms: seq<Email>, id: string, e: Email): (r: seq<Email>)
    ensures |r| == |ms|
    ensures forall i :: 0 <= i < |r| ==> r[i] == if ms[i].id == id then e else ms[i]
  {
    seq(|ms|, i requires 0 <= i < |ms| => if ms[i].id == id then e else ms[i])
  }

  /** Replacing members by a copy with the same timestamp keeps them in time order. */
  lemma ReplaceMemberSorted(ms: seq<Email>, id: string, e: Email)
    requires SortedBy(ms, TimeKey)
    requires forall i :: 0 <= i < |ms| && ms[i].id == id ==> ms[i].timestamp == e.timestamp
    ensures SortedBy(ReplaceMember(ms, id, e), TimeKey)
  {
  }

  /** Swapping the same replacement in twice is swapping it in once. */
  lemma ReplaceMemberIdempotent(ms: seq<Email>, id: string, e: Email)
    ensures ReplaceMember(ReplaceMember(ms, id, e), id, e) == ReplaceMember(ms, id, e)
  {
  }

  /** The patch handler's refresh brings the derived fields back in step, whatever the replacement. */
  lemma PatchedThreadDerived(t: Thread, id: string, e: Email)
    requires |t.messages| > 0 || DerivedFieldsMatch(t)
    ensures DerivedFieldsMatch(Refresh(t.(messages := ReplaceMember(t.messages, id, e))))
  {
    if |t.messages| == 0 {
      assert ReplaceMember(t.messages, id, e) == t.messages;
      assert t.(messages := t.messages) == t;
    }
  }

  /**
   * The thread the patch handler leaves: the matching member replaced,
   * then `refreshMetadata`. Consistency survives when the replacement keeps
   * the member's timestamp.
   */
  lemma PatchedThreadConsistent(t: Thread, id: string, e: Email)
    requires Consistent(t)
    requires forall i :: 0 <= i < |t.messages| && t.messages[i].id == id ==> t.messages[i].timestamp == e.timestamp
    ensures Consistent(Refresh(t.(messages := ReplaceMember(t.messages, id, e))))
  {
    ReplaceMemberSorted(t.messages, id, e);
  }
}

=== FILE: wrappers.dfy ===
/** Small failure-carrying datatypes shared by the mail model. */
module Wrappers {

  /** An optional value: a missing JSON field, an absent query parameter. */
  datatype Option<+T> = None | Some(value: T) {

    /** The carried value, or `default` when there is none. */
    function GetOr(default: T): T {
      match this
      case Some(v) => v
      case None => default
    }
  }

  /**
   * What a request handler answers: the record, the not-found outcome, or
   * a failure the handler does not catch.
   */
  datatype Response<+T> = Ok(value: T) | NotFound | Failed(reason: string)
}
